=== FILE: README.md ===
# actual-landg-pension, modelled in Dafny

This project models the core of a small service. The service reads the
total savings of a Legal & General pension from the provider's web page. It
then records each change of that value as a transaction in Actual Budget
ledger accounts. Four modules follow the program's files:

- `Sync` (sync.dfy) models one reconciliation pass, `runSync`:
  - It loads the mapping of ledger accounts and opens the ledger.
  - It lists the accounts and observes the pension value once.
  - Each mapping entry is either skipped, left alone because its delta is
    zero, or given one correcting transaction. The payee is looked up, else
    created, else the raw payee name is used.
  - The updated mapping is saved, and the ledger is closed exactly once.
  - Every collaborator is an outcome in `Outcomes`. The result records the
    calls made (`trace`), the transactions submitted, the mapping written
    and the applied count.
- `SavingsText` (savings_text.dfy) models the savings-amount pattern: a
  currency sign, then `[\d,]+\.\d{2}`. The match is leftmost and greedy. The
  commas are dropped before the number is read.
- `LandgClient` (landg_client.dfy) models the shared login state and how it
  changes: a code submission, the reset at the start of an attempt, and
  recording a failure or a success. It also models:
  - the 500 ms polling of the code wait and its kill timer, including how
    Node.js clamps the timer's delay;
  - one scraping attempt, whose browser steps are pass/fail outcomes. Other
    writers change the state in between (the code form, other attempts).
- `WebUi` (web_ui.dfy) models two parts of the web front end:
  - the session-cookie check, with JavaScript's `trim` and `split(";")`
    written out;
  - the `/api/data` handler's readiness flag and its one-time reopen of the
    ledger.

All amounts are integer pence, so a zero delta is tested exactly and the
conversion to minor units is exact. `Wrappers` (wrappers.dfy) holds
`Option`, `Result` and `Outcome`.

Four behaviours of the code are worth knowing, and the model proves each:

- The 2FA wait's timeout does not fail the attempt. The whole optional
  verification block (src/landg-client.js:124-182) sits in a catch that
  ignores its errors. Scraping continues, and the attempt still succeeds if
  the page shows the amount (`LandgClient.TimedOutAttemptCanSucceed`).
- A submitted code is never cleared from the shared state. Only a later
  code submission (src/landg-client.js:21), a new attempt's reset
  (src/landg-client.js:38-40) or a success (src/landg-client.js:206-207)
  overwrites `value` (`LandgClient.CodeNotConsumed`).
- A zero delta found against the ledger's balance leaves `lastBalance`
  stale: the loop continues (src/sync.js:94-95) before the update at
  src/sync.js:130. A later pass whose balance query fails can then apply the
  difference again (`Sync.StaleFallbackCanReapply`). A second pass applies
  nothing when both passes compared against the stored balances
  (`Sync.SecondPassAppliesNothing`).
- A failed `addTransactions` (src/sync.js:126-129) is not caught per entry.
  The outer catch (src/sync.js:150-151) ends the loop, skipping the save and
  the post-sync, and the count applied so far is returned
  (`Sync.FailedSubmitSkipsSave`).

## Model

| member | source | states |
|---|---|---|
| Sync.RunSync | src/sync.js:31-155 | if the open fails, nothing else is called and 0 is returned; otherwise the trace starts with the open and ends with exactly one close; if listing the accounts or observing the value fails, nothing is applied or saved; a saved mapping has the loaded length and differs only by lastBalance set to the observed value; the count equals the number of submitted transactions |
| Sync.Reconcile | src/sync.js:75-154 | after the observation: the count equals both the number of submitted transactions and the number of successful submissions in the trace; the ledger closes once at the end; no second observation; a saved mapping only updates balances to the current value |
| Sync.FoundPayeeIsFirstNamed | src/sync.js:107 | a non-empty found id belongs to the first payee with the fixed name; no payee with that name gives no id |
| Sync.Baseline | src/sync.js:83-93 | the baseline is the queried ledger balance; when the query fails it is the stored lastBalance, or 0 when none is stored |
| Sync.PayeeFor | src/sync.js:98-123 | the payee used is never empty; without creation it is the first listed match; a created id is used when it is not empty; a failed creation or an empty created id falls back to the raw payee name |
| Sync.StepCases | src/sync.js:77-131 | an entry is skipped without calls exactly when its account is not listed; it stops after the balance query exactly when its baseline equals the observed value; otherwise it queries the payees, creates the payee exactly when none is listed, and is aborted exactly when the submission fails; an applied entry's transaction carries its account, the non-zero delta and the payee used |
| Sync.StepEndsWithSubmission | src/sync.js:118-131 | an entry that reaches submission has the submission as its last call |
| Sync.StepSubmission | src/sync.js:94-131 | an entry submits for its own position exactly when it is applied (and the submission succeeded) or aborted (and it failed) |
| Sync.StepSubmits | src/sync.js:126-131 | an entry counts one successful submission exactly when it is applied |
| Sync.RunEntries | src/sync.js:76-132 | the loop keeps the mapping's length and counts one per submitted transaction |
| Sync.RunEntriesCons | src/sync.js:76-132 | an aborting entry ends the loop with the mapping as it was; any other entry's calls, transaction and balance update are followed by the rest of the loop |
| Sync.LoopOnlySetsBalances | src/sync.js:76-132 | each entry stays as it was or only has lastBalance set to the observed value |
| Sync.LoopCallsStayInRange | src/sync.js:76-132 | every call in the loop is a per-entry call for an entry of the mapping |
| Sync.LoopCountsSubmits | src/sync.js:126-131 | the loop's count equals the number of successful submissions it made |
| Sync.UnlistedEntryIsSkipped | src/sync.js:77-81 | an entry whose account is not listed is unchanged and causes no call |
| Sync.ZeroDeltaKeepsEntry | src/sync.js:83-95 | an entry whose baseline equals the observed value is unchanged |
| Sync.ZeroDeltaSubmitsNothing | src/sync.js:83-95 | an entry whose baseline equals the observed value gets no submission |
| Sync.ChangedIsApplied | src/sync.js:94-131 | in a loop that ran to the end, a listed entry with a non-zero delta was submitted successfully and its lastBalance set |
| Sync.ChangedEntryIsOwed | src/sync.js:118-129 | a listed entry with a non-zero delta owes its transaction |
| Sync.OwedTxIsForChangedEntry | src/sync.js:77-129 | conversely, every owed transaction is the one of a listed entry with a non-zero delta |
| Sync.LoopSubmitsOwedTxs | src/sync.js:76-132 | the submitted transactions are a prefix of the owed ones, and all of them when the loop is not aborted |
| Sync.FailedSubmitAbortsLoop | src/sync.js:126-151 | a failed submission aborts the loop |
| Sync.FailedSubmitIsLastCall | src/sync.js:126-151 | a failed submission is the loop's last call |
| Sync.EntriesIgnoreSaveOutcome | src/sync.js:134-141 | the loop does not depend on whether the later save succeeds |
| Sync.RerunFindsNoDelta | src/sync.js:83-95 | with every balance query failing, a rerun of a completed loop over its own mapping applies nothing |
| Sync.PassShape | src/sync.js:46-155 | a pass is the opening calls, then the loop, then save, post-sync and close when the loop completed, or close alone when it aborted |
| Sync.PassCountsSubmits | src/sync.js:126-155 | the returned count equals the successful submissions in the trace |
| Sync.MissingMappingAppliesNothing | src/sync.js:31-42 | an unreadable mapping applies nothing and is saved as empty |
| Sync.ObservedOnceBeforeEntries | src/sync.js:54-76 | the value is observed exactly once, after open, pre-sync and account listing, before any per-entry call |
| Sync.SkippedEntryIsUntouched | src/sync.js:77-81 | an unlisted entry causes no call and is saved unchanged |
| Sync.ZeroDeltaEntryIsUntouched | src/sync.js:83-95 | a zero-delta entry is not submitted and is saved unchanged |
| Sync.ChangedEntryIsApplied | src/sync.js:94-141 | in a pass that reached the save, a changed listed entry is submitted and saved with the observed balance |
| Sync.ChangedEntryGetsItsTx | src/sync.js:118-129 | that entry's transaction carries the delta, the payee, the raw payee name and both options off |
| Sync.PassSubmitsOwedTxs | src/sync.js:76-141 | a pass submits a prefix of the owed transactions, all of them when it reached the save |
| Sync.FailedSubmitSkipsSave | src/sync.js:126-154 | after a failed submission nothing is saved and the trace ends with that submission and the close |
| Sync.PassTraceCalls | src/sync.js:134-154 | the save is called exactly when the loop completed; per-entry calls are the loop's; an aborted loop is followed only by the close |
| Sync.SaveOutcomeKeepsCount | src/sync.js:134-141 | a failed save changes neither the count, the transactions nor the calls |
| Sync.SecondPassAppliesNothing | src/sync.js:83-95 | with balance queries failing in both passes, a second pass over the saved mapping applies nothing |
| Sync.StaleFallbackCanReapply | src/sync.js:83-93 | a zero delta found against the ledger leaves lastBalance stale, and a second pass falling back to it applies the change again |
| SavingsText.RunEnd | src/landg-client.js:201 | the greedy `[\d,]+` run ends at the first character that is neither a digit nor a comma |
| SavingsText.RegexMatchIsGreedy | src/landg-client.js:201 | any match at a position is the one the greedy reading finds there |
| SavingsText.GreedyMatchIsRegex | src/landg-client.js:201 | whatever the greedy reading finds is a match of the pattern |
| SavingsText.NothingFoundMeansNoMatch | src/landg-client.js:201-204 | the search from a position finds nothing exactly when no match starts there or later |
| SavingsText.FirstMatchSkips | src/landg-client.js:201 | positions without a match do not change the search's result |
| SavingsText.ParseSavings | src/landg-client.js:201-204 | no amount is read exactly when the text holds no match anywhere |
| SavingsText.LeftmostMatchIsRead | src/landg-client.js:201-205 | the amount read is the leftmost match's |
| SavingsText.MatchesStartWithSign | src/landg-client.js:201 | every match starts with the sign's first character |
| SavingsText.AbsentSignMeansNoAmount | src/landg-client.js:201-204 | text without the sign's first character yields no amount |
| SavingsText.StripCommas | src/landg-client.js:205 | removing commas from digits and commas leaves only digits |
| SavingsText.StripCommasAppend | src/landg-client.js:205 | comma removal distributes over concatenation |
| SavingsText.NoCommasAmongDigits | src/landg-client.js:205 | comma removal leaves a digit string unchanged |
| SavingsText.GroupedValue | src/landg-client.js:205 | a thousands-grouped numeral reads back as its value once the commas are removed |
| SavingsText.FramedMatches | src/landg-client.js:201-205 | sign, grouped digits, point and two digits form a match whose amount is the pence value |
| SavingsText.AmountAfterFirstSignIsRead | src/landg-client.js:201-205 | with no sign before it, a framed amount is the one read, whatever follows |
| SavingsText.RenderedAmountReadsBack | src/landg-client.js:201-205 | reading a rendered pence amount after the sign returns that amount |
| SavingsText.RenderedAmountValue | src/landg-client.js:205 | the grouped pounds and the two pence digits read as the original pence |
| SavingsText.NoMatchBeforeSign | src/landg-client.js:201 | no match starts inside text that lacks the sign's first character |
| SavingsText.MojibakeSignMissesSample | src/landg-client.js:201-204 | the two-character sign finds no amount in "Your total savings are £1,234.56" |
| SavingsText.PoundSignReadsSample | src/landg-client.js:201-205 | the pound sign reads 123456 pence from that text |
| SavingsText.SampleAmount | src/landg-client.js:205 | "1,234" and ".56" read as 123456 pence |
| LandgClient.SubmitTwoFACode | src/landg-client.js:20-23 | a submission stores the code and sets the status to idle, keeping the error |
| LandgClient.Reset | src/landg-client.js:37-40 | an attempt starts from idle with no error and no value, whatever came before |
| LandgClient.RecordFailure | src/landg-client.js:209-211 | a failure sets the error status and message and keeps the value |
| LandgClient.RecordSuccess | src/landg-client.js:206-208 | a success sets the logged-in status and the amount and keeps the error |
| LandgClient.MarkAwaiting | src/landg-client.js:148 | reaching the code wait sets the awaiting status and keeps the error and the value |
| LandgClient.DeliverAll | src/landg-client.js:20-211 | changes by others applied in order: the last one decides the status; a code or a success also decides the value, a new attempt clears everything, another attempt reaching its wait sets the awaiting status, a failure stores its message |
| LandgClient.PollTick | src/landg-client.js:154-165 | a poll rejects exactly when the status is error, with the stored message ("null" when absent); otherwise it resolves exactly when the value is truthy, with that value |
| LandgClient.CodeTimeoutMs | src/landg-client.js:144 | an unset or empty setting gives 60000 ms; a number of seconds gives that many thousand ms; other text gives NaN |
| LandgClient.KillDelayMs | src/landg-client.js:144-153 | the kill timer fires after the configured delay when it lies in the timer's range, and after 1 ms when it is out of range or not a number |
| LandgClient.PollsBeforeKill | src/landg-client.js:149-165 | exactly the polls due strictly before the kill run |
| LandgClient.WaitFrom | src/landg-client.js:148-166 | poll by poll: the wait ends at the first poll whose state does not keep waiting, resolving with its code or rejecting with its error; a timeout means every allowed poll kept waiting; the state returned is the state seen at the last poll |
| LandgClient.TwoFactor | src/landg-client.js:124-182 | a missing verification step leaves the state as it was and skips the wait; a passed one always runs the wait, within the polls before the kill, and leaves the state the wait ends in |
| LandgClient.GetPensionValue | src/landg-client.js:30-221 | for any savings sign, an attempt succeeds exactly when it ends logged in, with the amount stored; a failure stores its message with the error status; the browser is closed exactly when it was launched and debug is off; the code wait only happens after launch, login and the verification step; a failed launch, login or savings read rejects with that step's own error |
| LandgClient.LastSubmissionWins | src/landg-client.js:20-23 | a second submission overrides the first |
| LandgClient.SubmissionWakesPoll | src/landg-client.js:154-165 | after a non-empty submission the next poll resolves with it; an empty one keeps the wait going |
| LandgClient.PeerFailureWinsOverCode | src/landg-client.js:154-159 | a failure recorded by another attempt rejects the wait with its message |
| LandgClient.UnansweredWaitTimesOut | src/landg-client.js:149-166 | with nothing arriving the wait uses every poll and is rejected with the timeout error |
| LandgClient.SubmissionDuringWaitIsReceived | src/landg-client.js:149-166 | a code submitted before some poll is received at that poll |
| LandgClient.PendingCodeWakesFirstPoll | src/landg-client.js:154-165 | a code already stored is received at the first poll |
| LandgClient.DefaultWaitIsAMinute | src/landg-client.js:144 | without the setting the kill fires after 60000 ms, after 119 polls |
| LandgClient.OutOfRangeTimeoutSkipsCode | src/landg-client.js:144-153 | a timeout setting outside the timer's range gives no poll before the kill |
| LandgClient.PeerAwaitingMasksFailure | src/landg-client.js:148-159 | after another attempt starts and fails, a further one reaching its wait keeps the failure message stored but makes the next poll keep waiting |
| LandgClient.CodeSurvivesFailedLaunch | src/landg-client.js:20-211 | a code submitted while the browser launches is still stored after the launch fails, with the error status and the launch's message |
| LandgClient.CodeSurvivesFailedLogin | src/landg-client.js:20-211 | a code submitted during the login is still stored after the login fails, with the error status and the login's message |
| LandgClient.VerificationAwaitsCode | src/landg-client.js:124-166 | with no code stored and nothing arriving, a passed verification step marks the state as awaiting the code and waits until the kill |
| LandgClient.PriorStateForgotten | src/landg-client.js:37-40 | an attempt's result does not depend on the state before it |
| LandgClient.SucceedsExactlyWhenSavingsRead | src/landg-client.js:185-208 | an attempt returns an amount exactly when launch, login and the savings step pass and the text holds that amount |
| LandgClient.MissingAmountFails | src/landg-client.js:201-211 | text without an amount fails the attempt with "Savings amount not found in text" |
| LandgClient.TwoFactorOutcomeSwallowed | src/landg-client.js:124-182 | the outcome, status and browser handling do not depend on the verification step or the wait |
| LandgClient.CodeNotConsumed | src/landg-client.js:160-211 | a received code stays in the shared state when the attempt later fails |
| LandgClient.EarlyCodeWakesFirstPoll | src/landg-client.js:37-165 | a code submitted during login is received at the first poll |
| LandgClient.TimedOutAttemptCanSucceed | src/landg-client.js:144-208 | with the pound sign, an attempt whose code wait times out still reads the amount and succeeds |
| LandgClient.AsWrittenAttemptMissesSample | src/landg-client.js:201-211 | with the two-character sign of the source, the same attempt on the sample text finds no amount and fails |
| WebUi.TrimStartIsSuffix | src/web-ui.js:29 | the start-trimmed text is a suffix of the input and starts with a visible character |
| WebUi.TrimStartDropsWhitespace | src/web-ui.js:29 | everything removed at the start is white space |
| WebUi.TrimEndIsPrefix | src/web-ui.js:29 | the end-trimmed text is a prefix of the input and ends with a visible character |
| WebUi.TrimEndDropsWhitespace | src/web-ui.js:29 | everything removed at the end is white space |
| WebUi.Trim | src/web-ui.js:23-29 | a non-empty trimmed text starts and ends with visible characters, and the trim is empty exactly when the text is all white space |
| WebUi.TrimOfVisible | src/web-ui.js:23-29 | a text with visible characters at both ends is its own trim |
| WebUi.TrimIdempotent | src/web-ui.js:23-29 | trimming twice is trimming once |
| WebUi.SegmentEnd | src/web-ui.js:28 | a segment ends at the input's end or at a semicolon |
| WebUi.NoSeparatorBeforeSegmentEnd | src/web-ui.js:28 | a segment holds no semicolon |
| WebUi.SplitFromJoins | src/web-ui.js:28 | joining the pieces split from a position with semicolons gives back the rest of the input |
| WebUi.SplitFromHasNoSeparator | src/web-ui.js:28 | no piece holds a semicolon |
| WebUi.Split | src/web-ui.js:28 | the pieces joined with semicolons give back the header, and no piece holds a semicolon |
| WebUi.PieceIsSegment | src/web-ui.js:28 | every piece is the segment of the header between two separators |
| WebUi.SegmentIsPiece | src/web-ui.js:28 | every segment of the header is one of the pieces |
| WebUi.CookieName | src/web-ui.js:21-25 | the cookie name is the configured one trimmed when that is not blank, and the default when it is unset or blank; it is never empty or padded |
| WebUi.CookieNameIsStable | src/web-ui.js:23-25 | configuring the chosen name again chooses the same name |
| WebUi.TrimEndKeepsPrefix | src/web-ui.js:29-30 | trimming the end does not change whether a piece starts with a name ending in a visible character |
| WebUi.TrimStartAt | src/web-ui.js:29 | trimming the start drops exactly the leading white space |
| WebUi.HeldCookieIsAfterSpace | src/web-ui.js:29-30 | a piece that holds the cookie has `name=` after leading white space |
| WebUi.CookieAfterSpaceIsHeld | src/web-ui.js:29-30 | a piece with `name=` after leading white space holds the cookie |
| WebUi.CookieOfSegment | src/web-ui.js:27-30 | a segment holding the cookie places it in the header |
| WebUi.SegmentOfCookie | src/web-ui.js:27-30 | a cookie placed in the header lies in a segment that holds it |
| WebUi.HasAuthCookie | src/web-ui.js:23-31 | the check passes exactly when some segment of the header, after leading white space, starts with `name=`; a missing header counts as empty |
| WebUi.PiecesHoldCookieIffCookieAt | src/web-ui.js:27-30 | some trimmed piece starts with `name=` exactly when some segment of the header has `name=` after its leading white space |
| WebUi.MissingHeaderHasNoCookie | src/web-ui.js:26-31 | a request without a Cookie header fails the check |
| WebUi.ApiData | src/web-ui.js:141-183 | the response carries the stored mapping or an empty one; without readiness no accounts are returned; the accounts are fetched exactly when the ledger was ready or the retry opened it; a reopen happens only on retry or on "No budget file is open"; a ledger that is ready or opened by the retry and lists its accounts is ready and returns them, with one fetch when it was already ready |
| WebUi.NotReadyRetriesFirst | src/web-ui.js:142-149 | a ledger that is not ready is opened first, and a failed open answers with no accounts and leaves it not ready |
| WebUi.OtherErrorKeepsReady | src/web-ui.js:141-183 | for any starting flag under which the ledger is usable, any other listing error leaves it ready and answers with no accounts after one fetch (preceded by the open when it was not ready) |
| WebUi.ClosedBudgetReopensOnce | src/web-ui.js:141-183 | for any starting flag under which the ledger is usable, "No budget file is open" causes exactly one reopen and one refetch when the reopen succeeds; the ledger ends ready exactly when both succeed, with the refetched accounts |
| WebUi.ClosedBudgetYieldsNoAccounts | src/web-ui.js:141-183 | for any starting flag, if the refetch fails again, no accounts are returned and the ledger is marked not ready |
| WebUi.FailedReopenRetriesNextRequest | src/web-ui.js:142-172 | after a failed reopen the next request opens the ledger first |
| WebUi.ApiDataFollowsReadinessRules | src/web-ui.js:141-183 | for any starting flag: the ledger is usable when ready or the retry opens it; it ends ready unless "no budget file is open" is not cured by a reopen and second listing; the accounts are the first listing's, the second's after a cure, or none; the exact calls made |

## Left out

- Browser automation: launching Chromium, the user agent, cookie files, navigation, typing the credentials and selectors. These are external effects. Each group of steps is one pass/fail outcome, and the page text is an input.
- Typing the received code and pressing Continue (src/landg-client.js:167-178): both sit in the same ignored block as the wait, so the model folds them into the verification step's outcome.
- Changes to the shared state that arrive after the code wait ends are not modelled: those during typing the code, during the savings read and before the final write. When the verification step fails there is no wait, and changes during the verification and savings steps are dropped in the same way. The attempt's final write would then decide the status and the error. A failure write leaves `value` alone, so a code that arrived late would stay stored; a success write replaces it.
- Timer ties: a poll due at the same moment as the kill is taken to lose to the kill, because the kill was scheduled first.
- LandgClient.CodeTimeoutMs: only whole seconds, unset and not-a-number settings are modelled, not fractional seconds.
- The `timeout` option that `runSync` passes to the scraper: the scraper ignores it, so it is not modelled.
- Floating point: amounts are exact integer pence. `parseFloat`, the division of ledger balances by 100 and `Math.round(delta * 100)` are then exact, which IEEE doubles are not for every amount.
- Mapping files whose JSON is valid but not an array of entries: the model reads a mapping as present-and-well-formed or missing.
- Transaction ids and dates (`Date.now()`, `new Date()`): time is not modelled. Transactions carry the account, amount, payee and options.
- LandgClient.GetPensionValue: `browser.close()` (src/landg-client.js:216-220) is taken never to throw. A rejection there would reject the attempt after a success, leaving the status logged-in, or replace the thrown error after a failure, leaving the failure stored.
- `closeBudget` is taken never to throw. src/utils.js is not part of this model.
- Sync.Outcomes: per-entry answers are indexed by mapping position, and a position past the end of a list answers as a failure.
- WebUi.ApiData: the startup open (src/web-ui.js:72-82) is the `ready` input, and the `landg` field of the response is not modelled.
- Logging, the Express server, the EJS views, the other routes, configuration loading and the scheduler in src/index.js: not part of this model.

## Findings

| source | as written | input that shows it | evidently intended | confidence | as-written member | corrected member |
|---|---|---|---|---|---|---|
| src/landg-client.js:201 | the pattern begins with the two characters "Â£", the UTF-8 bytes of the pound sign read as Latin-1 | the savings text "Your total savings are £1,234.56" (tests/landg-client.test.js:35) yields no amount | the single character "£", giving 1234.56 | not executed | SavingsText.MojibakeSignMissesSample, LandgClient.AsWrittenAttemptMissesSample | SavingsText.PoundSignReadsSample, LandgClient.TimedOutAttemptCanSucceed |

`LandgClient.GetPensionValue` takes the sign as a parameter. Its properties
hold for any sign. With the sign as written, the sample attempt fails with
"Savings amount not found in text"; with the pound sign, it succeeds.

=== FILE: landg_client.dfy ===
/** The pension provider's login coordinator. One shared login state is read
    and written by the scraping attempt, by the web form that submits the
    one-time code, and by any other attempt running at the same time. The
    browser steps are abstract outcomes; timers become poll ticks. */
module LandgClient {
  import opened Wrappers
  import SavingsText

  datatype Status = Idle | Awaiting2fa | LoggedIn | Error

  /** The overloaded `value` slot: nothing, a submitted code, or an amount
      (in pence) read by a successful attempt */
  datatype Value = Null | Text(s: string) | Number(n: int) {
    /** JavaScript truthiness: the empty string and zero are falsy */
    predicate Truthy() {
      match this
      case Null => false
      case Text(s) => s != ""
      case Number(n) => n != 0
    }
  }

  datatype ServerState = ServerState(status: Status, error: Option<string>, value: Value)

  const InitialState: ServerState := ServerState(Idle, None, Null)

  const CodeTimeoutMessage: string := "2FA code timeout"
  const NotFoundMessage: string := "Savings amount not found in text"

  /** The code wait polls the shared state every 500 ms */
  const PollIntervalMs: nat := 500

  /** The largest delay a Node.js timer honours; any other delay becomes 1 ms */
  const TimerMaxMs: nat := 2147483647

  /** The form's submission of a one-time code */
  function SubmitTwoFACode(st: ServerState, code: string): (r: ServerState)
    ensures r.status == Idle && r.value == Text(code) && r.error == st.error
  {
    st.(value := Text(code), status := Idle)
  }

  /** Every attempt starts from a cleared state, whatever came before */
  function Reset(st: ServerState): (r: ServerState)
    ensures r == InitialState
  {
    ServerState(Idle, None, Null)
  }

  /** The failure transition: the message is kept and the value is left as it is */
  function RecordFailure(st: ServerState, message: string): (r: ServerState)
    ensures r.status == Error && r.error == Some(message) && r.value == st.value
  {
    st.(status := Error, error := Some(message))
  }

  /** The success transition: the amount read replaces the value */
  function RecordSuccess(st: ServerState, amount: nat): (r: ServerState)
    ensures r.status == LoggedIn && r.value == Number(amount) && r.error == st.error
  {
    st.(status := LoggedIn, value := Number(amount))
  }

  /** An attempt reaching its code wait: only the status changes */
  function MarkAwaiting(st: ServerState): (r: ServerState)
    ensures r.status == Awaiting2fa && r.error == st.error && r.value == st.value
  {
    st.(status := Awaiting2fa)
  }

  /** A change of the shared state made by someone other than the waiting
      attempt: the form, or another attempt starting, reaching its own code
      wait, failing or succeeding */
  datatype Arrival =
    | Submitted(code: string)
    | PeerStarted
    | PeerAwaiting
    | PeerFailed(message: string)
    | PeerSucceeded(amount: nat)

  function Deliver(st: ServerState, a: Arrival): ServerState {
    match a
    case Submitted(code) => SubmitTwoFACode(st, code)
    case PeerStarted => Reset(st)
    case PeerAwaiting => MarkAwaiting(st)
    case PeerFailed(m) => RecordFailure(st, m)
    case PeerSucceeded(v) => RecordSuccess(st, v)
  }

  /** The changes applied in order: the last one decides the status; a
      code, a new attempt or a success also decides the value */
  function DeliverAll(st: ServerState, changes: seq<Arrival>): (r: ServerState)
    ensures changes == [] ==> r == st
    ensures changes != [] ==>
              var x := changes[|changes| - 1];
              && (x.Submitted? ==> r.status == Idle && r.value == Text(x.code))
              && (x.PeerStarted? ==> r == InitialState)
              && (x.PeerAwaiting? ==> r.status == Awaiting2fa)
              && (x.PeerFailed? ==> r.status == Error && r.error == Some(x.message))
              && (x.PeerSucceeded? ==> r.status == LoggedIn && r.value == Number(x.amount))
    decreases |changes|
  {
    if changes == [] then st else DeliverAll(Deliver(st, changes[0]), changes[1..])
  }

  lemma {:induction false} DeliverAllAppend(st: ServerState, xs: seq<Arrival>, x: Arrival)
    ensures DeliverAll(st, xs + [x]) == Deliver(DeliverAll(st, xs), x)
    decreases |xs|
  {
    if xs == [] {
      assert [] + [x] == [x];
    } else {
      assert (xs + [x])[1..] == xs[1..] + [x];
      DeliverAllAppend(Deliver(st, xs[0]), xs[1..], x);
    }
  }

  /** The message of an Error built from the stored error: a missing one
      reads as "null" */
  function ErrorText(e: Option<string>): string {
    match e
    case Some(m) => m
    case None => "null"
  }

  datatype PollDecision = KeepWaiting | Resolve(code: Value) | Reject(message: string)

  /** One poll of the code wait: a recorded failure wins, then any truthy value */
  function PollTick(st: ServerState): (d: PollDecision)
    ensures d.Reject? <==> st.status == Error
    ensures d.Resolve? <==> st.status != Error && st.value.Truthy()
    ensures d.Resolve? ==> d.code == st.value
    ensures d.Reject? ==> d.message == ErrorText(st.error)
  {
    if st.status == Error then Reject(ErrorText(st.error))
    else if st.value.Truthy() then Resolve(st.value)
    else KeepWaiting
  }

  /** The `LANDG_2FA_TIMEOUT` setting: unset or empty, a whole number of
      seconds, or text that is not a number */
  datatype Env = Unset | Seconds(n: int) | NotANumber

  /** The code timeout in ms; None stands for NaN. An unset or empty
      setting falls back to a minute; any other text counts in seconds. */
  function CodeTimeoutMs(env: Env): (t: Option<int>)
    ensures t.None? <==> env.NotANumber?
    ensures t.Some? ==> t.value % 1000 == 0
    ensures env.Unset? ==> t == Some(60000)
    ensures env.Seconds? ==> t == Some(env.n * 1000)
  {
    match env
    case Unset => Some(60 * 1000)
    case Seconds(n) => Some(n * 1000)
    case NotANumber => None
  }

  /** The delay after which the kill timer fires */
  function KillDelayMs(env: Env): (d: nat)
    ensures 1 <= d <= TimerMaxMs
    ensures (match CodeTimeoutMs(env)
             case Some(t) => d == (if 1 <= t <= TimerMaxMs then t else 1)
             case None => d == 1)
  {
    match CodeTimeoutMs(env)
    case Some(t) => if 1 <= t <= TimerMaxMs then t else 1
    case None => 1
  }

  /** The number of polls that run before the kill timer fires. A poll due
      at the very moment of the kill loses to it: the kill was scheduled first. */
  function PollsBeforeKill(env: Env): (t: nat)
    ensures PollIntervalMs * t < KillDelayMs(env) <= PollIntervalMs * (t + 1)
  {
    (KillDelayMs(env) - 1) / PollIntervalMs
  }

  datatype WaitEnd = CodeReceived(code: Value) | Rejected(message: string) | TimedOut

  datatype WaitResult = WaitResult(end: WaitEnd, state: ServerState, polls: nat)

  /** How the code wait's promise settles: with the code, or rejected with
      the stored error's message or with the timeout error */
  function Settlement(end: WaitEnd): Result<Value, string> {
    match end
    case CodeReceived(v) => Ok(v)
    case Rejected(m) => Err(m)
    case TimedOut => Err(CodeTimeoutMessage)
  }

  /** The changes that land before poll `k + 1` */
  function BatchAt(arrivals: seq<seq<Arrival>>, k: nat): seq<Arrival> {
    if k < |arrivals| then arrivals[k] else []
  }

  /** The state poll `j + 1` sees: batches `tick` to `j` delivered in turn */
  function StateAtPoll(st: ServerState, arrivals: seq<seq<Arrival>>, tick: nat, j: nat): ServerState
    requires tick <= j
    decreases j - tick
  {
    var seen := DeliverAll(st, BatchAt(arrivals, tick));
    if j == tick then seen else StateAtPoll(seen, arrivals, tick + 1, j)
  }

  /** Past the first batch, the states seen are those of the wait that
      starts after it */
  lemma StateAtPollShifts(st: ServerState, arrivals: seq<seq<Arrival>>, tick: nat)
    ensures forall j :: tick < j ==>
              StateAtPoll(st, arrivals, tick, j) == StateAtPoll(DeliverAll(st, BatchAt(arrivals, tick)), arrivals, tick + 1, j)
  {
  }

  /** The code wait from poll `tick + 1` on, with `ticks` polls before the
      kill. Each poll first sees what arrived since the previous one. */
  function WaitFrom(st: ServerState, arrivals: seq<seq<Arrival>>, tick: nat, ticks: nat): (r: WaitResult)
    requires tick <= ticks
    ensures tick <= r.polls <= ticks
    ensures r.end.TimedOut? ==> r.polls == ticks
    ensures r.end.CodeReceived? ==> r.end.code.Truthy() && r.state.value == r.end.code && r.state.status != Error
    ensures r.end.Rejected? ==> r.state.status == Error && r.end.message == ErrorText(r.state.error)
    ensures r.end.TimedOut? ==>
              && r.state == StateAtPoll(st, arrivals, tick, ticks)
              && forall j :: tick <= j < ticks ==> PollTick(StateAtPoll(st, arrivals, tick, j)) == KeepWaiting
    ensures !r.end.TimedOut? ==>
              && tick < r.polls
              && r.state == StateAtPoll(st, arrivals, tick, r.polls - 1)
              && (forall j :: tick <= j < r.polls - 1 ==> PollTick(StateAtPoll(st, arrivals, tick, j)) == KeepWaiting)
              && PollTick(r.state) == (if r.end.CodeReceived? then Resolve(r.end.code) else Reject(r.end.message))
    decreases ticks - tick
  {
    StateAtPollShifts(st, arrivals, tick);
    var seen := DeliverAll(st, BatchAt(arrivals, tick));
    if tick == ticks then WaitResult(TimedOut, seen, ticks)
    else
      match PollTick(seen)
      case Reject(m) => WaitResult(Rejected(m), seen, tick + 1)
      case Resolve(v) => WaitResult(CodeReceived(v), seen, tick + 1)
      case KeepWaiting => WaitFrom(seen, arrivals, tick + 1, ticks)
  }

  /** What one scraping attempt meets, step by step */
  datatype Attempt = Attempt(
    launch: Outcome<string>,         // starting the browser
    login: Outcome<string>,          // opening the page, cookies, navigation, credentials
    early: seq<Arrival>,             // changes made by others while logging in
    verification: Outcome<string>,   // choosing SMS and reaching the code field
    env: Env,
    arrivals: seq<seq<Arrival>>,     // changes made by others during the code wait
    savings: Outcome<string>,        // finding and reading the savings element
    text: string)                    // the element's text, "" when absent

  datatype AttemptResult = AttemptResult(
    state: ServerState,
    outcome: Result<nat, string>,
    browserClosed: bool,
    wait: Option<WaitResult>)

  /** The optional verification block: its own failures, the timeout
      included, end it early and are otherwise ignored */
  function TwoFactor(st: ServerState, a: Attempt): (r: (ServerState, Option<WaitResult>))
    ensures a.verification.Fail? ==> r == (st, None)
    ensures a.verification.Pass? ==> r.1.Some? && r.0 == r.1.value.state && r.1.value.polls <= PollsBeforeKill(a.env)
  {
    if a.verification.Fail? then (st, None)
    else
      var w := WaitFrom(MarkAwaiting(st), a.arrivals, 0, PollsBeforeKill(a.env));
      (w.state, Some(w))
  }

  /** One run of the scraper. The savings pattern starts with `sign`: the
      source spells it as `SavingsText.MojibakePoundSign`, while the page
      shows `SavingsText.PoundSign`. */
  function GetPensionValue(sign: string, prior: ServerState, a: Attempt, debug: bool): (r: AttemptResult)
    ensures r.outcome.Ok? <==> r.state.status == LoggedIn
    ensures r.outcome.Ok? ==> r.state.value == Number(r.outcome.value)
    ensures r.outcome.Err? ==> r.state.status == Error && r.state.error == Some(r.outcome.error)
    ensures r.browserClosed <==> a.launch.Pass? && !debug
    ensures r.wait.Some? ==> a.launch.Pass? && a.login.Pass? && a.verification.Pass?
    ensures a.launch.Fail? ==> r.outcome == Err(a.launch.error)
    ensures a.launch.Pass? && a.login.Fail? ==> r.outcome == Err(a.login.error)
    ensures a.launch.Pass? && a.login.Pass? && a.savings.Fail? ==> r.outcome == Err(a.savings.error)
  {
    var start := Reset(prior);
    if a.launch.Fail? then
      AttemptResult(RecordFailure(DeliverAll(start, a.early), a.launch.error), Err(a.launch.error), false, None)
    else
      var closed := !debug;
      var st := DeliverAll(start, a.early);
      if a.login.Fail? then
        AttemptResult(RecordFailure(st, a.login.error), Err(a.login.error), closed, None)
      else
        var (after, wait) := TwoFactor(st, a);
        if a.savings.Fail? then
          AttemptResult(RecordFailure(after, a.savings.error), Err(a.savings.error), closed, wait)
        else
          match SavingsText.ParseSavings(sign, a.text)
          case None => AttemptResult(RecordFailure(after, NotFoundMessage), Err(NotFoundMessage), closed, wait)
          case Some(v) => AttemptResult(RecordSuccess(after, v), Ok(v), closed, wait)
  }

  // Properties of the shared state and the code wait

  /** Only the latest submitted code is kept */
  lemma LastSubmissionWins(st: ServerState, first: string, second: string)
    ensures SubmitTwoFACode(SubmitTwoFACode(st, first), second) == SubmitTwoFACode(st, second)
  {
  }

  /** A submitted code wakes the next poll exactly when it is not empty */
  lemma SubmissionWakesPoll(st: ServerState, code: string)
    ensures PollTick(SubmitTwoFACode(st, code)) == if code != "" then Resolve(Text(code)) else KeepWaiting
  {
  }

  /** A failure recorded by another attempt ends the wait, even with a code
      already in place */
  lemma PeerFailureWinsOverCode(st: ServerState, arrivals: seq<seq<Arrival>>, tick: nat, ticks: nat, message: string)
    requires tick < ticks && BatchAt(arrivals, tick) == [PeerFailed(message)]
    ensures WaitFrom(st, arrivals, tick, ticks).end == Rejected(message)
  {
    assert DeliverAll(st, [PeerFailed(message)]) == RecordFailure(st, message);
  }

  /** With nothing arriving and no code in place, the wait runs every poll
      and ends at the kill timer, which rejects with the timeout error */
  lemma {:induction false} UnansweredWaitTimesOut(st: ServerState, tick: nat, ticks: nat)
    requires tick <= ticks
    requires st.status != Error && !st.value.Truthy()
    ensures WaitFrom(st, [], tick, ticks) == WaitResult(TimedOut, st, ticks)
    ensures Settlement(WaitFrom(st, [], tick, ticks).end) == Err(CodeTimeoutMessage)
    decreases ticks - tick
  {
    if tick < ticks {
      UnansweredWaitTimesOut(st, tick + 1, ticks);
    }
  }

  /** A code submitted between two polls is taken by the next one, when no
      other change arrives meanwhile */
  lemma {:induction false} SubmissionDuringWaitIsReceived(st: ServerState, arrivals: seq<seq<Arrival>>, tick: nat, k: nat, ticks: nat, code: string)
    requires tick <= k < ticks && code != ""
    requires st.status != Error && !st.value.Truthy()
    requires forall j :: tick <= j < k ==> BatchAt(arrivals, j) == []
    requires BatchAt(arrivals, k) == [Submitted(code)]
    ensures WaitFrom(st, arrivals, tick, ticks) == WaitResult(CodeReceived(Text(code)), SubmitTwoFACode(st, code), k + 1)
    decreases k - tick
  {
    if tick < k {
      assert BatchAt(arrivals, tick) == [];
      SubmissionDuringWaitIsReceived(st, arrivals, tick + 1, k, ticks, code);
    } else {
      assert DeliverAll(st, [Submitted(code)]) == SubmitTwoFACode(st, code);
    }
  }

  /** A code already in place when the wait starts is taken by the first poll */
  lemma PendingCodeWakesFirstPoll(st: ServerState, arrivals: seq<seq<Arrival>>, ticks: nat)
    requires 0 < ticks && BatchAt(arrivals, 0) == []
    requires st.status != Error && st.value.Truthy()
    ensures WaitFrom(st, arrivals, 0, ticks) == WaitResult(CodeReceived(st.value), st, 1)
  {
  }

  /** With no timeout configured the kill fires after a minute, and a poll
      due at that very moment never runs */
  lemma DefaultWaitIsAMinute()
    ensures KillDelayMs(Unset) == 60000 && PollsBeforeKill(Unset) == 119
  {
  }

  /** A timeout outside what a timer honours fires after 1 ms, before any
      poll, so the code is never read */
  lemma OutOfRangeTimeoutSkipsCode(st: ServerState, arrivals: seq<seq<Arrival>>, n: int)
    requires !(1 <= n * 1000 <= TimerMaxMs)
    ensures PollsBeforeKill(Seconds(n)) == 0
    ensures WaitFrom(st, arrivals, 0, PollsBeforeKill(Seconds(n))).end == TimedOut
  {
  }

  /** Another attempt starts and fails, and a further one reaches its own
      code wait: the failure is still stored but hidden from the next poll,
      which keeps waiting */
  lemma PeerAwaitingMasksFailure(st: ServerState, message: string)
    ensures DeliverAll(st, [PeerStarted, PeerFailed(message), PeerAwaiting]) == ServerState(Awaiting2fa, Some(message), Null)
    ensures PollTick(DeliverAll(st, [PeerStarted, PeerFailed(message), PeerAwaiting])) == KeepWaiting
  {
    var xs := [PeerStarted, PeerFailed(message), PeerAwaiting];
    var failed := RecordFailure(InitialState, message);
    assert xs[1..] == [PeerFailed(message), PeerAwaiting] && xs[1..][1..] == [PeerAwaiting];
    assert DeliverAll(failed, [PeerAwaiting]) == MarkAwaiting(failed);
    assert DeliverAll(InitialState, xs[1..]) == DeliverAll(failed, [PeerAwaiting]);
  }

  /** A code submitted while the browser launches, with nothing after it,
      is still stored after the launch fails */
  lemma CodeSurvivesFailedLaunch(sign: string, prior: ServerState, a: Attempt, debug: bool, earlier: seq<Arrival>, code: string)
    requires a.launch.Fail? && a.early == earlier + [Submitted(code)]
    ensures GetPensionValue(sign, prior, a, debug).state == ServerState(Error, Some(a.launch.error), Text(code))
  {
    DeliverAllAppend(InitialState, earlier, Submitted(code));
  }

  /** Likewise when the login fails after the code arrived */
  lemma CodeSurvivesFailedLogin(sign: string, prior: ServerState, a: Attempt, debug: bool, earlier: seq<Arrival>, code: string)
    requires a.launch.Pass? && a.login.Fail? && a.early == earlier + [Submitted(code)]
    ensures GetPensionValue(sign, prior, a, debug).state == ServerState(Error, Some(a.login.error), Text(code))
  {
    DeliverAllAppend(InitialState, earlier, Submitted(code));
  }

  /** A verification step that passes, with no code in place and nothing
      arriving, marks the state as awaiting the code and waits until the kill */
  lemma VerificationAwaitsCode(st: ServerState, a: Attempt)
    requires a.verification.Pass? && a.arrivals == [] && !st.value.Truthy()
    ensures TwoFactor(st, a).0 == MarkAwaiting(st)
    ensures TwoFactor(st, a).1 == Some(WaitResult(TimedOut, MarkAwaiting(st), PollsBeforeKill(a.env)))
  {
    UnansweredWaitTimesOut(MarkAwaiting(st), 0, PollsBeforeKill(a.env));
  }

  // Properties of a whole attempt

  /** The shared state left by an earlier attempt has no effect on this one */
  lemma PriorStateForgotten(sign: string, p1: ServerState, p2: ServerState, a: Attempt, debug: bool)
    ensures GetPensionValue(sign, p1, a, debug) == GetPensionValue(sign, p2, a, debug)
  {
  }

  /** The attempt succeeds with v exactly when every mandatory step passes
      and the savings text reads as v */
  lemma SucceedsExactlyWhenSavingsRead(sign: string, prior: ServerState, a: Attempt, debug: bool, v: nat)
    ensures GetPensionValue(sign, prior, a, debug).outcome == Ok(v) <==>
            a.launch.Pass? && a.login.Pass? && a.savings.Pass?
            && SavingsText.ParseSavings(sign, a.text) == Some(v)
  {
  }

  /** Text without an amount fails the attempt with its own message, never
      with a silent zero */
  lemma MissingAmountFails(sign: string, prior: ServerState, a: Attempt, debug: bool)
    requires a.launch.Pass? && a.login.Pass? && a.savings.Pass?
    requires SavingsText.ParseSavings(sign, a.text) == None
    ensures GetPensionValue(sign, prior, a, debug).outcome == Err(NotFoundMessage)
    ensures GetPensionValue(sign, prior, a, debug).state.status == Error
  {
  }

  /** Whatever happens in the verification block, the timeout included, the
      outcome, the final status and the teardown are those of the
      mandatory steps */
  lemma TwoFactorOutcomeSwallowed(sign: string, prior: ServerState, a: Attempt, b: Attempt, debug: bool)
    requires a.launch == b.launch && a.login == b.login
    requires a.savings == b.savings && a.text == b.text
    ensures GetPensionValue(sign, prior, a, debug).outcome == GetPensionValue(sign, prior, b, debug).outcome
    ensures GetPensionValue(sign, prior, a, debug).state.status == GetPensionValue(sign, prior, b, debug).state.status
    ensures GetPensionValue(sign, prior, a, debug).browserClosed == GetPensionValue(sign, prior, b, debug).browserClosed
  {
  }

  /** A received code is never cleared: when the attempt then fails, the code
      is still the stored value */
  lemma CodeNotConsumed(sign: string, prior: ServerState, a: Attempt, debug: bool)
    requires GetPensionValue(sign, prior, a, debug).wait.Some?
    requires GetPensionValue(sign, prior, a, debug).wait.value.end.CodeReceived?
    requires GetPensionValue(sign, prior, a, debug).outcome.Err?
    ensures GetPensionValue(sign, prior, a, debug).state.value == GetPensionValue(sign, prior, a, debug).wait.value.end.code
  {
  }

  /** A code submitted while logging in, with nothing after it, is read by
      the first poll of the wait */
  lemma EarlyCodeWakesFirstPoll(sign: string, prior: ServerState, a: Attempt, debug: bool, earlier: seq<Arrival>, code: string)
    requires a.launch.Pass? && a.login.Pass? && a.verification.Pass?
    requires a.early == earlier + [Submitted(code)] && code != ""
    requires 0 < PollsBeforeKill(a.env) && BatchAt(a.arrivals, 0) == []
    ensures GetPensionValue(sign, prior, a, debug).wait.Some?
    ensures GetPensionValue(sign, prior, a, debug).wait.value.end == CodeReceived(Text(code))
    ensures GetPensionValue(sign, prior, a, debug).wait.value.polls == 1
  {
    DeliverAllAppend(InitialState, earlier, Submitted(code));
  }

  /** An attempt whose code never comes still succeeds when the savings page
      reads: a one-second timeout, one poll, then the kill */
  lemma TimedOutAttemptCanSucceed()
    ensures var a := Attempt(Pass, Pass, [], Pass, Seconds(1), [], Pass, SavingsText.SampleText);
            var r := GetPensionValue(SavingsText.PoundSign, InitialState, a, false);
            r.wait == Some(WaitResult(TimedOut, ServerState(Awaiting2fa, None, Null), 1))
            && r.outcome == Ok(123456)
  {
    UnansweredWaitTimesOut(ServerState(Awaiting2fa, None, Null), 0, 1);
    SavingsText.PoundSignReadsSample();
  }

  /** With the pattern as the source spells it, the same attempt on the
      sample page finds no amount and fails */
  lemma AsWrittenAttemptMissesSample()
    ensures var a := Attempt(Pass, Pass, [], Pass, Seconds(1), [], Pass, SavingsText.SampleText);
            var r := GetPensionValue(SavingsText.MojibakePoundSign, InitialState, a, false);
            r.outcome == Err(NotFoundMessage) && r.state.status == Error
  {
    SavingsText.MojibakeSignMissesSample();
  }
}

=== FILE: savings_text.dfy ===
/** Reading the savings amount out of the account page's text: the leftmost
    currency sign followed by a run of digits and commas, a point and two
    digits. The commas are dropped and the number read; amounts here are
    integer pence, so "1,234.56" reads as 123456. The currency sign is a
    parameter: the page shows the pound sign, while the scraper's pattern
    spells it as two characters (see `MojibakeSignMissesSample`). */
module SavingsText {
  import opened Wrappers

  /** The pound sign, U+00A3, as the page text carries it */
  const PoundSign: string := "\U{00A3}"

  /** The pound sign's two UTF-8 bytes read back as two Latin-1 characters */
  const MojibakePoundSign: string := "\U{00C2}\U{00A3}"

  /** The savings sentence the client is exercised against */
  const SampleText: string := "Your total savings are \U{00A3}1,234.56"

  predicate IsDigit(c: char) { '0' <= c <= '9' }

  /** A character of the `[\d,]` class */
  predicate IsGroupChar(c: char) { IsDigit(c) || c == ',' }

  predicate AllDigits(s: string) { forall k :: 0 <= k < |s| ==> IsDigit(s[k]) }

  predicate AllGroupChars(s: string) { forall k :: 0 <= k < |s| ==> IsGroupChar(s[k]) }

  function DigitValue(c: char): nat
    requires IsDigit(c)
  {
    (c as int - '0' as int) as nat
  }

  function DigitChar(d: nat): (c: char)
    requires d < 10
    ensures IsDigit(c) && DigitValue(c) == d
  {
    ('0' as int + d) as char
  }

  /** The number a string of decimal digits denotes; the empty string denotes
      0, as the integer part of ".50" does */
  function DigitsValue(ds: string): nat
    requires AllDigits(ds)
  {
    if ds == [] then 0 else DigitsValue(ds[..|ds| - 1]) * 10 + DigitValue(ds[|ds| - 1])
  }

  function StripCommas(s: string): (t: string)
    ensures AllGroupChars(s) ==> AllDigits(t)
  {
    if s == [] then [] else (if s[0] == ',' then [] else [s[0]]) + StripCommas(s[1..])
  }

  /** The amount in pence of a captured `whole.d1d2`: the number the text
      denotes once its commas are removed, times 100 */
  function AmountOf(whole: string, d1: char, d2: char): nat
    requires AllGroupChars(whole) && IsDigit(d1) && IsDigit(d2)
  {
    DigitsValue(StripCommas(whole)) * 100 + DigitValue(d1) * 10 + DigitValue(d2)
  }

  /** The end of the longest run of digits and commas that starts at i */
  function RunEnd(s: string, i: nat): (j: nat)
    requires i <= |s|
    ensures i <= j <= |s|
    ensures forall k :: i <= k < j ==> IsGroupChar(s[k])
    ensures j < |s| ==> !IsGroupChar(s[j])
    decreases |s| - i
  {
    if i < |s| && IsGroupChar(s[i]) then RunEnd(s, i + 1) else i
  }

  /** The pattern `prefix([\d,]+\.\d{2})` matches s at position p with a run
      of n digits and commas before the point. This is the regular-expression
      reading, where backtracking may settle on any such n. */
  predicate MatchesWith(prefix: string, s: string, p: nat, n: nat) {
    var q := p + |prefix|;
    1 <= n && q + n + 3 <= |s| && s[p..q] == prefix && AllGroupChars(s[q..q + n])
    && s[q + n] == '.' && IsDigit(s[q + n + 1]) && IsDigit(s[q + n + 2])
  }

  /** The amount the capture group holds for a match at p with run length n */
  function CapturedAmount(prefix: string, s: string, p: nat, n: nat): nat
    requires MatchesWith(prefix, s, p, n)
  {
    var q := p + |prefix|;
    AmountOf(s[q..q + n], s[q + n + 1], s[q + n + 2])
  }

  /** A match attempt at p: the sign, then the greedy run, then `.dd` */
  function MatchAt(prefix: string, s: string, p: nat): Option<nat>
    requires p <= |s|
  {
    var q := p + |prefix|;
    if q <= |s| && s[p..q] == prefix then
      var e := RunEnd(s, q);
      if q < e && e + 3 <= |s| && s[e] == '.' && IsDigit(s[e + 1]) && IsDigit(s[e + 2])
      then Some(AmountOf(s[q..e], s[e + 1], s[e + 2]))
      else None
    else None
  }

  /** The first successful match attempt at or after p */
  function FirstMatch(prefix: string, s: string, p: nat): Option<nat>
    requires p <= |s|
    decreases |s| - p
  {
    match MatchAt(prefix, s, p)
    case Some(v) => Some(v)
    case None => if p == |s| then None else FirstMatch(prefix, s, p + 1)
  }

  /** The savings amount in pence, or None when the text holds no amount */
  function ParseSavings(prefix: string, s: string): (r: Option<nat>)
    ensures r.None? <==> forall p: nat, n: nat :: p <= |s| ==> !MatchesWith(prefix, s, p, n)
  {
    NothingFoundMeansNoMatch(prefix, s, 0);
    FirstMatch(prefix, s, 0)
  }

  /** A regular-expression match fixes its run: it is the greedy one */
  lemma RegexMatchIsGreedy(prefix: string, s: string, p: nat, n: nat)
    requires MatchesWith(prefix, s, p, n)
    ensures MatchAt(prefix, s, p) == Some(CapturedAmount(prefix, s, p, n))
  {
    var q := p + |prefix|;
    forall k | q <= k < q + n ensures IsGroupChar(s[k]) {
      assert s[k] == s[q..q + n][k - q];
    }
    assert RunEnd(s, q) == q + n;
  }

  /** A greedy match is a regular-expression match */
  lemma GreedyMatchIsRegex(prefix: string, s: string, p: nat)
    requires p <= |s| && MatchAt(prefix, s, p).Some?
    ensures MatchesWith(prefix, s, p, RunEnd(s, p + |prefix|) - (p + |prefix|))
  {
  }

  /** No match anywhere from p on is what makes FirstMatch come back empty */
  lemma {:induction false} NothingFoundMeansNoMatch(prefix: string, s: string, p: nat)
    requires p <= |s|
    ensures FirstMatch(prefix, s, p).None? <==>
            forall q: nat, n: nat :: p <= q <= |s| ==> !MatchesWith(prefix, s, q, n)
    decreases |s| - p
  {
    if MatchAt(prefix, s, p).Some? {
      GreedyMatchIsRegex(prefix, s, p);
    } else {
      forall n: nat | MatchesWith(prefix, s, p, n) ensures false {
        RegexMatchIsGreedy(prefix, s, p, n);
      }
      if p < |s| {
        NothingFoundMeansNoMatch(prefix, s, p + 1);
      }
    }
  }

  /** Attempts that fail between q and p do not change the first match */
  lemma {:induction false} FirstMatchSkips(prefix: string, s: string, q: nat, p: nat)
    requires q <= p <= |s|
    requires forall j: nat, m: nat :: q <= j < p ==> !MatchesWith(prefix, s, j, m)
    ensures FirstMatch(prefix, s, q) == FirstMatch(prefix, s, p)
    decreases p - q
  {
    if q < p {
      if MatchAt(prefix, s, q).Some? {
        GreedyMatchIsRegex(prefix, s, q);
        assert false;
      }
      FirstMatchSkips(prefix, s, q + 1, p);
    }
  }

  /** The amount read is the one captured by the leftmost match */
  lemma LeftmostMatchIsRead(prefix: string, s: string, p: nat, n: nat)
    requires MatchesWith(prefix, s, p, n)
    requires forall q: nat, m: nat :: q < p ==> !MatchesWith(prefix, s, q, m)
    ensures ParseSavings(prefix, s) == Some(CapturedAmount(prefix, s, p, n))
  {
    FirstMatchSkips(prefix, s, 0, p);
    RegexMatchIsGreedy(prefix, s, p, n);
  }

  /** Every match starts with the sign's first character */
  lemma MatchesStartWithSign(prefix: string, s: string)
    requires |prefix| > 0
    ensures forall p: nat, n: nat :: MatchesWith(prefix, s, p, n) ==> p < |s| && s[p] == prefix[0]
  {
    forall p: nat, n: nat | MatchesWith(prefix, s, p, n) ensures p < |s| && s[p] == prefix[0] {
      assert s[p..p + |prefix|][0] == s[p];
    }
  }

  /** A text without the sign's first character holds no amount */
  lemma AbsentSignMeansNoAmount(prefix: string, s: string)
    requires |prefix| > 0 && prefix[0] !in s
    ensures ParseSavings(prefix, s) == None
  {
    MatchesStartWithSign(prefix, s);
  }

  // Rendering an amount the way the page shows it, for the round trip.

  function Digits(n: nat): (ds: string)
    ensures |ds| > 0 && AllDigits(ds)
    decreases n
  {
    if n < 10 then [DigitChar(n)] else Digits(n / 10) + [DigitChar(n % 10)]
  }

  function Pad3(m: nat): (ds: string)
    requires m < 1000
    ensures |ds| == 3 && AllDigits(ds)
  {
    [DigitChar(m / 100), DigitChar(m / 10 % 10), DigitChar(m % 10)]
  }

  /** Whole pounds grouped by thousands, as in "1,234,567" */
  function Grouped(n: nat): (g: string)
    ensures |g| > 0 && AllGroupChars(g)
    decreases n
  {
    if n < 1000 then Digits(n) else Grouped(n / 1000) + "," + Pad3(n % 1000)
  }

  /** An amount in pence as the page shows it, without the sign */
  function Render(pence: nat): string {
    Grouped(pence / 100) + "." + [DigitChar(pence % 100 / 10), DigitChar(pence % 10)]
  }

  lemma {:induction false} DigitsValueOfDigits(n: nat)
    ensures DigitsValue(Digits(n)) == n
    decreases n
  {
    if n >= 10 {
      DigitsValueOfDigits(n / 10);
      var ds := Digits(n);
      assert ds[..|ds| - 1] == Digits(n / 10);
    }
  }

  lemma {:induction false} StripCommasAppend(a: string, b: string)
    ensures StripCommas(a + b) == StripCommas(a) + StripCommas(b)
  {
    if a == [] {
      assert a + b == b;
    } else {
      var h := if a[0] == ',' then [] else [a[0]];
      assert (a + b)[0] == a[0];
      assert (a + b)[1..] == a[1..] + b;
      calc {
        StripCommas(a + b);
        h + StripCommas(a[1..] + b);
        { StripCommasAppend(a[1..], b); }
        h + (StripCommas(a[1..]) + StripCommas(b));
        (h + StripCommas(a[1..])) + StripCommas(b);
      }
    }
  }

  lemma {:induction false} DigitsValueOfPad3(x: string, m: nat)
    requires m < 1000 && AllDigits(x)
    ensures AllDigits(x + Pad3(m)) && DigitsValue(x + Pad3(m)) == DigitsValue(x) * 1000 + m
  {
    var d1, d2, d3 := DigitChar(m / 100), DigitChar(m / 10 % 10), DigitChar(m % 10);
    var s1, s2, s3 := x + [d1], x + [d1, d2], x + [d1, d2, d3];
    assert s1[..|s1| - 1] == x;
    assert s2[..|s2| - 1] == s1;
    assert s3[..|s3| - 1] == s2;
    assert DigitsValue(s1) == DigitsValue(x) * 10 + m / 100;
    assert DigitsValue(s2) == DigitsValue(s1) * 10 + m / 10 % 10;
    assert DigitsValue(s3) == DigitsValue(s2) * 10 + m % 10;
    assert m == m / 100 * 100 + m / 10 % 10 * 10 + m % 10;
    assert x + Pad3(m) == s3;
  }

  /** Dropping the commas of a grouped number gives back the number */
  lemma {:induction false} GroupedValue(n: nat)
    ensures AllDigits(StripCommas(Grouped(n))) && DigitsValue(StripCommas(Grouped(n))) == n
    decreases n
  {
    if n < 1000 {
      NoCommasAmongDigits(Digits(n));
      DigitsValueOfDigits(n);
    } else {
      var g, pad := Grouped(n / 1000), Pad3(n % 1000);
      assert Grouped(n) == g + ("," + pad);
      GroupedValue(n / 1000);
      StripCommasAppend(g, "," + pad);
      assert StripCommas("," + pad) == StripCommas(pad);
      NoCommasAmongDigits(pad);
      DigitsValueOfPad3(StripCommas(g), n % 1000);
    }
  }

  lemma {:induction false} NoCommasAmongDigits(ds: string)
    requires AllDigits(ds)
    ensures StripCommas(ds) == ds
  {
    if ds != [] {
      NoCommasAmongDigits(ds[1..]);
    }
  }

  /** The text `t`, the sign, a run `g`, a point and two digits, then `u`:
      what the page shows around an amount */
  function Framed(prefix: string, t: string, g: string, d1: char, d2: char, u: string): string {
    t + (prefix + (g + (['.', d1, d2] + u)))
  }

  lemma FramedMatches(prefix: string, t: string, g: string, d1: char, d2: char, u: string)
    requires |g| > 0 && AllGroupChars(g) && IsDigit(d1) && IsDigit(d2)
    ensures MatchesWith(prefix, Framed(prefix, t, g, d1, d2, u), |t|, |g|)
    ensures CapturedAmount(prefix, Framed(prefix, t, g, d1, d2, u), |t|, |g|) == AmountOf(g, d1, d2)
  {
    var s := Framed(prefix, t, g, d1, d2, u);
    var q := |t| + |prefix|;
    assert s[|t|..q] == prefix;
    assert s[q..q + |g|] == g;
    assert s[q + |g|] == '.' && s[q + |g| + 1] == d1 && s[q + |g| + 2] == d2;
  }

  /** When the lead-in lacks the sign, the amount after the first sign is
      the one read */
  lemma {:induction false} AmountAfterFirstSignIsRead(prefix: string, t: string, g: string, d1: char, d2: char, u: string)
    requires |prefix| > 0 && prefix[0] !in t
    requires |g| > 0 && AllGroupChars(g) && IsDigit(d1) && IsDigit(d2)
    ensures ParseSavings(prefix, Framed(prefix, t, g, d1, d2, u)) == Some(AmountOf(g, d1, d2))
  {
    FramedMatches(prefix, t, g, d1, d2, u);
    NoMatchBeforeSign(prefix, t, prefix + (g + (['.', d1, d2] + u)));
    LeftmostMatchIsRead(prefix, Framed(prefix, t, g, d1, d2, u), |t|, |g|);
  }

  /** Round trip: the sign followed by a rendered amount reads back as that
      amount, whatever the sign */
  lemma RenderedAmountReadsBack(prefix: string, pence: nat)
    requires |prefix| > 0
    ensures ParseSavings(prefix, prefix + Render(pence)) == Some(pence)
  {
    var g := Grouped(pence / 100);
    var d1, d2 := DigitChar(pence % 100 / 10), DigitChar(pence % 10);
    assert Framed(prefix, [], g, d1, d2, []) == prefix + Render(pence);
    AmountAfterFirstSignIsRead(prefix, [], g, d1, d2, []);
    RenderedAmountValue(pence);
  }

  lemma RenderedAmountValue(pence: nat)
    ensures AmountOf(Grouped(pence / 100), DigitChar(pence % 100 / 10), DigitChar(pence % 10)) == pence
  {
    var w, r := pence / 100, pence % 100;
    var b, c := r / 10, r % 10;
    assert r == b * 10 + c;
    assert c == pence % 10;
    assert pence == w * 100 + r;
    GroupedValue(w);
    assert AmountOf(Grouped(w), DigitChar(b), DigitChar(c)) == w * 100 + b * 10 + c;
  }

  /** As written, the scraper's two-character sign never occurs in the
      sample sentence, so the sample yields no amount */
  lemma MojibakeSignMissesSample()
    ensures ParseSavings(MojibakePoundSign, SampleText) == None
  {
    assert MojibakePoundSign[0] !in SampleText;
    AbsentSignMeansNoAmount(MojibakePoundSign, SampleText);
  }

  /** No match starts inside a lead-in that lacks the sign's first character */
  lemma NoMatchBeforeSign(prefix: string, t: string, u: string)
    requires |prefix| > 0 && prefix[0] !in t
    ensures forall q: nat, m: nat :: q < |t| ==> !MatchesWith(prefix, t + u, q, m)
  {
    MatchesStartWithSign(prefix, t + u);
    assert forall q :: 0 <= q < |t| ==> (t + u)[q] == t[q];
  }

  /** With the pound sign, the sample sentence reads as 123456 pence */
  lemma PoundSignReadsSample()
    ensures ParseSavings(PoundSign, SampleText) == Some(123456)
  {
    var head := "Your total savings are ";
    assert SampleText == Framed(PoundSign, head, "1,234", '5', '6', []);
    assert PoundSign[0] !in head;
    AmountAfterFirstSignIsRead(PoundSign, head, "1,234", '5', '6', []);
    SampleAmount();
  }

  lemma SampleAmount()
    ensures AmountOf("1,234", '5', '6') == 123456
  {
    assert StripCommas("1,234") == "1234";
    assert "1234"[..3] == "123";
    assert "123"[..2] == "12";
    assert "12"[..1] == "1";
    assert "1"[..0] == "";
  }
}

=== FILE: sync.dfy ===
/** The balance reconciliation pass: one observation of the pension value is
    compared with every mapping entry, and each account whose balance differs
    gets one correcting transaction.

    All amounts are integer pence, so the exact zero-delta test and the
    conversion of a pound delta to minor units are exact. Every call into the
    ledger, the observer and the file system is an outcome taken from
    `Outcomes`; per-entry outcomes are indexed by the entry's position in the
    mapping sequence. */
module Sync {
  import opened Wrappers

  /** The fixed payee name used for every imported transaction */
  const PayeeName: string := "actual-landg-pension"

  /** A mapping entry. `lastBalance` is in pence, and None when the stored
      field is absent or not a number. */
  datatype Entry = Entry(accountId: string, lastBalance: Option<int>)

  /** A ledger payee; an empty id stands for a falsy id */
  datatype Payee = Payee(id: string, name: string)

  /** A submitted transaction together with its submission options (the date
      and the time-derived id are not modelled) */
  datatype Tx = Tx(account: string, amount: int, payee: string, importedPayee: string,
                   runTransfers: bool, learnCategories: bool)

  /** Calls made to the collaborators during a pass, in order */
  datatype Event =
    | OpenBudget | SyncBudget | GetAccounts | Observe
    | QueryBalance(entry: nat) | GetPayees(entry: nat) | CreatePayee(entry: nat) | AddTransactions(entry: nat)
    | SaveMapping | CloseBudget
  {
    /** True of the calls made while processing one mapping entry */
    predicate PerEntry() {
      QueryBalance? || GetPayees? || CreatePayee? || AddTransactions?
    }
  }

  /** What the collaborators answer during one pass. Per-entry answers are
      listed by mapping position; a position past the end of a list answers
      as a failure. */
  datatype Outcomes = Outcomes(
    openOk: bool,                        // openBudget resolves
    accounts: Option<seq<string>>,       // ids from getAccounts; None when it throws
    observed: Option<int>,               // getPensionValue; None when it throws
    balances: seq<Option<int>>,          // getAccountBalance per entry; None when it throws
    listings: seq<Option<seq<Payee>>>,   // getPayees per entry; None when it throws or is not an array
    creations: seq<Option<string>>,      // createPayee per entry; None when it throws
    submissions: seq<bool>,              // addTransactions per entry resolves
    saveOk: bool)                        // the temp-file write and the rename both succeed
  {
    function Balance(i: nat): Option<int> { if i < |balances| then balances[i] else None }
    function Payees(i: nat): Option<seq<Payee>> { if i < |listings| then listings[i] else None }
    function Created(i: nat): Option<string> { if i < |creations| then creations[i] else None }
    function SubmitOk(i: nat): bool { i < |submissions| && submissions[i] }
  }

  /** The result of one pass: the applied count, the submitted transactions,
      the mapping written to disk (None when nothing was written) and the
      calls made */
  datatype SyncResult = SyncResult(applied: nat, txs: seq<Tx>, persisted: Option<seq<Entry>>, trace: seq<Event>)

  /** The balance an entry is compared against: the ledger balance when the
      query succeeds, else the stored balance, else 0 */
  function Baseline(e: Entry, queried: Option<int>): (b: int)
    ensures queried.Some? ==> b == queried.value
    ensures queried.None? && e.lastBalance.Some? ==> b == e.lastBalance.value
    ensures queried.None? && e.lastBalance.None? ==> b == 0
  {
    match queried
    case Some(b) => b
    case None => e.lastBalance.GetOr(0)
  }

  /** The id of the first payee named `PayeeName`, or "" when there is none
      or its id is falsy */
  function FindPayeeId(ps: seq<Payee>): string {
    if |ps| == 0 then ""
    else if ps[0].name == PayeeName then ps[0].id
    else FindPayeeId(ps[1..])
  }

  /** A nonempty id found belongs to the first payee with the fixed name;
      without such a payee nothing is found */
  lemma {:induction false} FoundPayeeIsFirstNamed(ps: seq<Payee>)
    ensures FindPayeeId(ps) != "" ==>
              exists k :: 0 <= k < |ps| && ps[k].name == PayeeName && ps[k].id == FindPayeeId(ps)
                          && forall k' :: 0 <= k' < k ==> ps[k'].name != PayeeName
    ensures (forall k :: 0 <= k < |ps| ==> ps[k].name != PayeeName) ==> FindPayeeId(ps) == ""
    decreases |ps|
  {
    if |ps| > 0 && ps[0].name != PayeeName {
      FoundPayeeIsFirstNamed(ps[1..]);
      if FindPayeeId(ps) != "" {
        var k :| 0 <= k < |ps| - 1 && ps[1..][k].name == PayeeName && ps[1..][k].id == FindPayeeId(ps[1..])
                 && forall k' :: 0 <= k' < k ==> ps[1..][k'].name != PayeeName;
        assert ps[k + 1] == ps[1..][k];
        forall k' | 0 <= k' < k + 1
          ensures ps[k'].name != PayeeName
        {
          if k' > 0 { assert ps[k'] == ps[1..][k' - 1]; }
        }
      }
      if forall k :: 0 <= k < |ps| ==> ps[k].name != PayeeName {
        forall k | 0 <= k < |ps| - 1
          ensures ps[1..][k].name != PayeeName
        {
          assert ps[1..][k] == ps[k + 1];
        }
      }
    } else if |ps| > 0 {
      assert ps[0].name == PayeeName;
    }
  }

  /** Whether entry i has to create the payee: the listing (empty when
      `getPayees` throws or returns a non-array) yields no usable id */
  predicate CreatesPayee(i: nat, o: Outcomes) {
    FindPayeeId(o.Payees(i).GetOr([])) == ""
  }

  /** The payee reference used for entry i: the listed payee's id, else the
      newly created id, else the bare payee name */
  function PayeeFor(i: nat, o: Outcomes): (payee: string)
    ensures payee != ""
    ensures !CreatesPayee(i, o) ==> payee == FindPayeeId(o.Payees(i).GetOr([]))
    ensures CreatesPayee(i, o) && o.Created(i).Some? && o.Created(i).value != "" ==> payee == o.Created(i).value
    ensures CreatesPayee(i, o) && o.Created(i).None? ==> payee == PayeeName
    ensures CreatesPayee(i, o) && o.Created(i) == Some("") ==> payee == PayeeName
  {
    if !CreatesPayee(i, o) then FindPayeeId(o.Payees(i).GetOr([]))
    else if o.Created(i).GetOr("") != "" then o.Created(i).value
    else PayeeName
  }

  /** The transaction submitted for entry `e` at position i */
  function TxFor(e: Entry, i: nat, observed: int, o: Outcomes): Tx {
    Tx(e.accountId, observed - Baseline(e, o.Balance(i)), PayeeFor(i, o), PayeeName, false, false)
  }

  datatype Step = Skipped | Unchanged | Applied(tx: Tx) | Aborted

  datatype StepResult = StepResult(step: Step, events: seq<Event>)

  /** One iteration of the entry loop */
  function ProcessEntry(e: Entry, i: nat, ids: seq<string>, observed: int, o: Outcomes): StepResult
  {
    if e.accountId !in ids then StepResult(Skipped, [])
    else if observed - Baseline(e, o.Balance(i)) == 0 then StepResult(Unchanged, [QueryBalance(i)])
    else
      var events := if CreatesPayee(i, o)
                    then [QueryBalance(i), GetPayees(i), CreatePayee(i), AddTransactions(i)]
                    else [QueryBalance(i), GetPayees(i), AddTransactions(i)];
      if o.SubmitOk(i) then StepResult(Applied(TxFor(e, i, observed, o)), events)
      else StepResult(Aborted, events)
  }

  /** What one iteration does: an unlisted entry is skipped without calls,
      a zero delta stops after the balance query, and a non-zero delta
      queries the payees, creates the payee when none is listed, and submits
      the transaction, which either applies it or aborts the loop */
  lemma StepCases(e: Entry, i: nat, ids: seq<string>, observed: int, o: Outcomes)
    ensures var s := ProcessEntry(e, i, ids, observed, o);
            && (s.step.Skipped? <==> e.accountId !in ids)
            && (s.step.Unchanged? <==> e.accountId in ids && Baseline(e, o.Balance(i)) == observed)
            && (s.step.Aborted? <==> e.accountId in ids && Baseline(e, o.Balance(i)) != observed && !o.SubmitOk(i))
            && (s.step.Skipped? ==> s.events == [])
            && (s.step.Unchanged? ==> s.events == [QueryBalance(i)])
    ensures var s := ProcessEntry(e, i, ids, observed, o);
            s.step.Applied? ==>
              && o.SubmitOk(i)
              && s.step.tx.account == e.accountId
              && s.step.tx.amount == observed - Baseline(e, o.Balance(i)) != 0
              && s.step.tx.payee == PayeeFor(i, o)
    ensures var s := ProcessEntry(e, i, ids, observed, o);
            s.step.Applied? || s.step.Aborted? ==>
              && |s.events| >= 3
              && s.events[0] == QueryBalance(i) && s.events[1] == GetPayees(i)
              && (CreatePayee(i) in s.events <==> CreatesPayee(i, o))
  {
  }

  /** An iteration that submits ends with its submission */
  lemma StepEndsWithSubmission(e: Entry, i: nat, ids: seq<string>, observed: int, o: Outcomes)
    ensures var s := ProcessEntry(e, i, ids, observed, o);
            s.step.Applied? || s.step.Aborted? ==> |s.events| >= 1 && s.events[|s.events| - 1] == AddTransactions(i)
  {
  }

  /** The only submission an iteration makes is its own, made when it is
      applied (the submission resolved) or aborted (it threw) */
  lemma StepSubmission(e: Entry, i: nat, ids: seq<string>, observed: int, o: Outcomes, j: nat)
    ensures var s := ProcessEntry(e, i, ids, observed, o);
            AddTransactions(j) in s.events <==>
              j == i && ((s.step.Applied? && o.SubmitOk(i)) || (s.step.Aborted? && !o.SubmitOk(i)))
  {
  }

  /** Number of `addTransactions` calls in `t` that resolved */
  function SuccessfulSubmits(t: seq<Event>, o: Outcomes): nat {
    if |t| == 0 then 0
    else (if t[0].AddTransactions? && o.SubmitOk(t[0].entry) then 1 else 0) + SuccessfulSubmits(t[1..], o)
  }

  lemma {:induction false} SuccessfulSubmitsAppend(a: seq<Event>, b: seq<Event>, o: Outcomes)
    ensures SuccessfulSubmits(a + b, o) == SuccessfulSubmits(a, o) + SuccessfulSubmits(b, o)
    decreases |a|
  {
    if |a| > 0 {
      assert (a + b)[1..] == a[1..] + b;
      SuccessfulSubmitsAppend(a[1..], b, o);
    } else {
      assert a + b == b;
    }
  }

  lemma {:induction false} NoSubmitsWithoutAddTransactions(t: seq<Event>, o: Outcomes)
    requires forall k :: 0 <= k < |t| ==> !t[k].AddTransactions?
    ensures SuccessfulSubmits(t, o) == 0
    decreases |t|
  {
    if |t| > 0 {
      NoSubmitsWithoutAddTransactions(t[1..], o);
    }
  }

  /** An entry's calls contain one resolved submission exactly when the entry was applied */
  lemma StepSubmits(e: Entry, i: nat, ids: seq<string>, observed: int, o: Outcomes)
    ensures var s := ProcessEntry(e, i, ids, observed, o);
            SuccessfulSubmits(s.events, o) == if s.step.Applied? then 1 else 0
  {
    var s := ProcessEntry(e, i, ids, observed, o);
    if s.step.Applied? || s.step.Aborted? {
      var n := |s.events|;
      assert s.events == s.events[..n - 1] + [AddTransactions(i)];
      NoSubmitsWithoutAddTransactions(s.events[..n - 1], o);
      SuccessfulSubmitsAppend(s.events[..n - 1], [AddTransactions(i)], o);
    } else {
      NoSubmitsWithoutAddTransactions(s.events, o);
    }
  }

  /** The in-memory state of the loop after processing a suffix of the mapping */
  datatype LoopState = LoopState(mapping: seq<Entry>, applied: nat, txs: seq<Tx>, trace: seq<Event>, aborted: bool)

  /** The entry loop over `es`, whose first entry sits at position i of the
      mapping. An `addTransactions` failure is not caught inside the loop: it
      ends the loop, leaving the remaining entries as they were. */
  function RunEntries(es: seq<Entry>, i: nat, ids: seq<string>, observed: int, o: Outcomes): (r: LoopState)
    ensures |r.mapping| == |es|
    ensures r.applied == |r.txs|
    decreases |es|
  {
    if |es| == 0 then LoopState([], 0, [], [], false)
    else
      var s := ProcessEntry(es[0], i, ids, observed, o);
      if s.step.Aborted? then LoopState(es, 0, [], s.events, true)
      else
        var rest := RunEntries(es[1..], i + 1, ids, observed, o);
        if s.step.Applied? then
          LoopState([es[0].(lastBalance := Some(observed))] + rest.mapping, rest.applied + 1,
                    [s.step.tx] + rest.txs, s.events + rest.trace, rest.aborted)
        else
          LoopState([es[0]] + rest.mapping, rest.applied, rest.txs, s.events + rest.trace, rest.aborted)
  }

  /** One step of the loop, spelled out: an aborting first entry ends it
      with the entries as they were; otherwise the first entry's result is
      followed by the rest of the loop */
  lemma RunEntriesCons(es: seq<Entry>, i: nat, ids: seq<string>, observed: int, o: Outcomes)
    requires |es| > 0
    ensures var s := ProcessEntry(es[0], i, ids, observed, o);
            var r := RunEntries(es, i, ids, observed, o);
            s.step.Aborted? ==> r.trace == s.events && r.aborted && r.mapping == es && r.txs == []
    ensures var s := ProcessEntry(es[0], i, ids, observed, o);
            var r := RunEntries(es, i, ids, observed, o);
            var rest := RunEntries(es[1..], i + 1, ids, observed, o);
            !s.step.Aborted? ==>
              && r.trace == s.events + rest.trace
              && r.aborted == rest.aborted
              && r.mapping == [if s.step.Applied? then es[0].(lastBalance := Some(observed)) else es[0]] + rest.mapping
              && r.txs == (if s.step.Applied? then [s.step.tx] else []) + rest.txs
  {
  }

  // ---------------------------------------------------------------------
  // Properties of the entry loop

  /** The loop changes nothing in an entry but its stored balance, which it
      can only set to the observed value */
  lemma {:induction false} LoopOnlySetsBalances(es: seq<Entry>, i: nat, ids: seq<string>, observed: int, o: Outcomes)
    ensures var r := RunEntries(es, i, ids, observed, o);
            forall k :: 0 <= k < |es| ==>
              r.mapping[k] == es[k] || r.mapping[k] == es[k].(lastBalance := Some(observed))
    decreases |es|
  {
    if |es| > 0 && !ProcessEntry(es[0], i, ids, observed, o).step.Aborted? {
      LoopOnlySetsBalances(es[1..], i + 1, ids, observed, o);
      var r := RunEntries(es, i, ids, observed, o);
      var rest := RunEntries(es[1..], i + 1, ids, observed, o);
      assert forall k :: 1 <= k < |es| ==> r.mapping[k] == rest.mapping[k - 1] && es[k] == es[1..][k - 1];
    }
  }

  /** Every call the loop makes is a per-entry call for one of its entries */
  lemma {:induction false} LoopCallsStayInRange(es: seq<Entry>, i: nat, ids: seq<string>, observed: int, o: Outcomes)
    ensures var r := RunEntries(es, i, ids, observed, o);
            forall e :: e in r.trace ==> e.PerEntry() && i <= e.entry < i + |es|
    decreases |es|
  {
    if |es| > 0 && !ProcessEntry(es[0], i, ids, observed, o).step.Aborted? {
      LoopCallsStayInRange(es[1..], i + 1, ids, observed, o);
    }
  }

  /** The loop's count is the number of submissions that resolved */
  lemma {:induction false} LoopCountsSubmits(es: seq<Entry>, i: nat, ids: seq<string>, observed: int, o: Outcomes)
    ensures var r := RunEntries(es, i, ids, observed, o);
            SuccessfulSubmits(r.trace, o) == r.applied
    decreases |es|
  {
    if |es| > 0 {
      var s := ProcessEntry(es[0], i, ids, observed, o);
      StepSubmits(es[0], i, ids, observed, o);
      if !s.step.Aborted? {
        var rest := RunEntries(es[1..], i + 1, ids, observed, o);
        LoopCountsSubmits(es[1..], i + 1, ids, observed, o);
        SuccessfulSubmitsAppend(s.events, rest.trace, o);
      }
    }
  }

  /** No call in `t` concerns the entry at position n */
  predicate NoCallsFor(t: seq<Event>, n: nat) {
    forall ev :: ev in t && ev.PerEntry() ==> ev.entry != n
  }

  /** An entry whose account the ledger does not list is left as it was,
      with no call made for it */
  lemma {:induction false} UnlistedEntryIsSkipped(es: seq<Entry>, i: nat, ids: seq<string>, observed: int, o: Outcomes, k: nat)
    requires k < |es| && es[k].accountId !in ids
    ensures var r := RunEntries(es, i, ids, observed, o);
            && r.mapping[k] == es[k]
            && NoCallsFor(r.trace, i + k)
    decreases k
  {
    var s := ProcessEntry(es[0], i, ids, observed, o);
    RunEntriesCons(es, i, ids, observed, o);
    if k == 0 {
      assert s.events == [];
      if !s.step.Aborted? {
        LoopCallsStayInRange(es[1..], i + 1, ids, observed, o);
      }
    } else if !s.step.Aborted? {
      var rest := RunEntries(es[1..], i + 1, ids, observed, o);
      UnlistedEntryIsSkipped(es[1..], i + 1, ids, observed, o, k - 1);
      assert es[1..][k - 1] == es[k];
      assert RunEntries(es, i, ids, observed, o).mapping[k] == rest.mapping[k - 1];
    }
  }

  /** An entry whose baseline equals the observed value is left as it was */
  lemma {:induction false} ZeroDeltaKeepsEntry(es: seq<Entry>, i: nat, ids: seq<string>, observed: int, o: Outcomes, k: nat)
    requires k < |es| && Baseline(es[k], o.Balance(i + k)) == observed
    ensures RunEntries(es, i, ids, observed, o).mapping[k] == es[k]
    decreases k
  {
    var s := ProcessEntry(es[0], i, ids, observed, o);
    RunEntriesCons(es, i, ids, observed, o);
    if k > 0 && !s.step.Aborted? {
      var rest := RunEntries(es[1..], i + 1, ids, observed, o);
      ZeroDeltaKeepsEntry(es[1..], i + 1, ids, observed, o, k - 1);
      assert es[1..][k - 1] == es[k];
      assert RunEntries(es, i, ids, observed, o).mapping[k] == rest.mapping[k - 1];
    }
  }

  /** No transaction is submitted for an entry whose baseline equals the
      observed value */
  lemma {:induction false} ZeroDeltaSubmitsNothing(es: seq<Entry>, i: nat, ids: seq<string>, observed: int, o: Outcomes, k: nat)
    requires k < |es| && Baseline(es[k], o.Balance(i + k)) == observed
    ensures AddTransactions(i + k) !in RunEntries(es, i, ids, observed, o).trace
    decreases k
  {
    var s := ProcessEntry(es[0], i, ids, observed, o);
    RunEntriesCons(es, i, ids, observed, o);
    StepSubmission(es[0], i, ids, observed, o, i + k);
    if !s.step.Aborted? {
      var rest := RunEntries(es[1..], i + 1, ids, observed, o);
      if k == 0 {
        LoopCallsStayInRange(es[1..], i + 1, ids, observed, o);
      } else {
        ZeroDeltaSubmitsNothing(es[1..], i + 1, ids, observed, o, k - 1);
        assert es[1..][k - 1] == es[k];
      }
      InAppend(AddTransactions(i + k), s.events, rest.trace);
    }
  }

  /** In a loop that is not aborted, a listed entry whose baseline differs
      from the observed value gets its transaction and takes the observed
      value as its stored balance */
  lemma {:induction false} ChangedIsApplied(es: seq<Entry>, i: nat, ids: seq<string>, observed: int, o: Outcomes, k: nat)
    requires k < |es| && es[k].accountId in ids && Baseline(es[k], o.Balance(i + k)) != observed
    requires !RunEntries(es, i, ids, observed, o).aborted
    ensures var r := RunEntries(es, i, ids, observed, o);
            && o.SubmitOk(i + k)
            && r.mapping[k] == es[k].(lastBalance := Some(observed))
            && AddTransactions(i + k) in r.trace
    decreases k
  {
    var r := RunEntries(es, i, ids, observed, o);
    var s := ProcessEntry(es[0], i, ids, observed, o);
    var rest := RunEntries(es[1..], i + 1, ids, observed, o);
    RunEntriesCons(es, i, ids, observed, o);
    assert !s.step.Aborted?;
    if k == 0 {
      StepCases(es[0], i, ids, observed, o);
      assert s.step.Applied?;
      StepSubmission(es[0], i, ids, observed, o, i);
      InAppend(AddTransactions(i), s.events, rest.trace);
    } else {
      ChangedIsApplied(es[1..], i + 1, ids, observed, o, k - 1);
      assert es[1..][k - 1] == es[k];
      assert r.mapping[k] == rest.mapping[k - 1];
      InAppend(AddTransactions(i + k), s.events, rest.trace);
    }
  }

  /** Reference definition of the transactions a loop over `es` owes: one
      per listed entry whose baseline differs from the observed value, in
      mapping order */
  function OwedTxs(es: seq<Entry>, i: nat, ids: seq<string>, observed: int, o: Outcomes): (owed: seq<Tx>)
    ensures |owed| <= |es|
    decreases |es|
  {
    if |es| == 0 then []
    else
      var owed := if es[0].accountId in ids && Baseline(es[0], o.Balance(i)) != observed
                  then [TxFor(es[0], i, observed, o)] else [];
      owed + OwedTxs(es[1..], i + 1, ids, observed, o)
  }

  /** A listed entry whose baseline differs from the observed value is owed
      its transaction */
  lemma {:induction false} ChangedEntryIsOwed(es: seq<Entry>, i: nat, ids: seq<string>, observed: int, o: Outcomes, k: nat)
    requires k < |es| && es[k].accountId in ids && Baseline(es[k], o.Balance(i + k)) != observed
    ensures TxFor(es[k], i + k, observed, o) in OwedTxs(es, i, ids, observed, o)
    decreases k
  {
    if k > 0 {
      ChangedEntryIsOwed(es[1..], i + 1, ids, observed, o, k - 1);
      assert es[1..][k - 1] == es[k];
    }
  }

  /** `t` is the transaction owed for entry k, a listed entry whose
      baseline differs from the observed value */
  predicate OwedAt(es: seq<Entry>, i: nat, ids: seq<string>, observed: int, o: Outcomes, t: Tx, k: nat) {
    && k < |es|
    && es[k].accountId in ids
    && Baseline(es[k], o.Balance(i + k)) != observed
    && t == TxFor(es[k], i + k, observed, o)
  }

  /** Every owed transaction belongs to a listed entry whose baseline
      differs from the observed value */
  lemma {:induction false} OwedTxIsForChangedEntry(es: seq<Entry>, i: nat, ids: seq<string>, observed: int, o: Outcomes, t: Tx)
    requires t in OwedTxs(es, i, ids, observed, o)
    ensures exists k: nat :: OwedAt(es, i, ids, observed, o, t, k)
    decreases |es|
  {
    assert |es| > 0;
    var changed := es[0].accountId in ids && Baseline(es[0], o.Balance(i)) != observed;
    var owed := if changed then [TxFor(es[0], i, observed, o)] else [];
    var rest := OwedTxs(es[1..], i + 1, ids, observed, o);
    assert OwedTxs(es, i, ids, observed, o) == owed + rest;
    if t in owed {
      assert OwedAt(es, i, ids, observed, o, t, 0);
    } else {
      OwedTxIsForChangedEntry(es[1..], i + 1, ids, observed, o, t);
      var k: nat :| OwedAt(es[1..], i + 1, ids, observed, o, t, k);
      assert es[1..][k] == es[k + 1] && i + 1 + k == i + (k + 1);
      assert OwedAt(es, i, ids, observed, o, t, k + 1);
    }
  }

  /** The loop submits the owed transactions in order; an aborted loop
      submits a prefix of them */
  lemma {:induction false} LoopSubmitsOwedTxs(es: seq<Entry>, i: nat, ids: seq<string>, observed: int, o: Outcomes)
    ensures var r := RunEntries(es, i, ids, observed, o);
            && r.txs <= OwedTxs(es, i, ids, observed, o)
            && (!r.aborted ==> r.txs == OwedTxs(es, i, ids, observed, o))
    decreases |es|
  {
    if |es| > 0 {
      var r := RunEntries(es, i, ids, observed, o);
      var s := ProcessEntry(es[0], i, ids, observed, o);
      var owed := if es[0].accountId in ids && Baseline(es[0], o.Balance(i)) != observed
                  then [TxFor(es[0], i, observed, o)] else [];
      assert OwedTxs(es, i, ids, observed, o) == owed + OwedTxs(es[1..], i + 1, ids, observed, o);
      if !s.step.Aborted? {
        var rest := RunEntries(es[1..], i + 1, ids, observed, o);
        LoopSubmitsOwedTxs(es[1..], i + 1, ids, observed, o);
        assert r.txs == owed + rest.txs;
      } else {
        assert r.txs == [];
      }
    }
  }

  /** A failed submission aborts the loop */
  lemma {:induction false} FailedSubmitAbortsLoop(es: seq<Entry>, i: nat, ids: seq<string>, observed: int, o: Outcomes, j: nat)
    requires AddTransactions(j) in RunEntries(es, i, ids, observed, o).trace && !o.SubmitOk(j)
    ensures RunEntries(es, i, ids, observed, o).aborted
    decreases |es|
  {
    var s := ProcessEntry(es[0], i, ids, observed, o);
    StepSubmission(es[0], i, ids, observed, o, j);
    if !s.step.Aborted? {
      InAppend(AddTransactions(j), s.events, RunEntries(es[1..], i + 1, ids, observed, o).trace);
      FailedSubmitAbortsLoop(es[1..], i + 1, ids, observed, o, j);
    }
  }

  /** A failed submission is the last call the loop makes */
  lemma {:induction false} FailedSubmitIsLastCall(es: seq<Entry>, i: nat, ids: seq<string>, observed: int, o: Outcomes, j: nat)
    requires AddTransactions(j) in RunEntries(es, i, ids, observed, o).trace && !o.SubmitOk(j)
    ensures var t := RunEntries(es, i, ids, observed, o).trace;
            |t| >= 1 && t[|t| - 1] == AddTransactions(j)
    decreases |es|
  {
    assert |es| > 0;
    var s := ProcessEntry(es[0], i, ids, observed, o);
    RunEntriesCons(es, i, ids, observed, o);
    StepSubmission(es[0], i, ids, observed, o, j);
    if s.step.Aborted? {
      assert RunEntries(es, i, ids, observed, o).trace == s.events;
      StepEndsWithSubmission(es[0], i, ids, observed, o);
    } else {
      var rest := RunEntries(es[1..], i + 1, ids, observed, o).trace;
      assert RunEntries(es, i, ids, observed, o).trace == s.events + rest;
      InAppend(AddTransactions(j), s.events, rest);
      FailedSubmitIsLastCall(es[1..], i + 1, ids, observed, o, j);
      LastOfAppend(s.events, rest);
    }
  }

  lemma InAppend(x: Event, a: seq<Event>, b: seq<Event>)
    ensures x in a + b <==> x in a || x in b
  {
  }

  lemma LastOfAppend(a: seq<Event>, b: seq<Event>)
    requires |b| >= 1
    ensures (a + b)[|a + b| - 1] == b[|b| - 1]
  {
  }

  /** The loop never consults the save outcome */
  lemma {:induction false} EntriesIgnoreSaveOutcome(es: seq<Entry>, i: nat, ids: seq<string>, observed: int, o: Outcomes, saveOk: bool)
    ensures RunEntries(es, i, ids, observed, o.(saveOk := saveOk)) == RunEntries(es, i, ids, observed, o)
    decreases |es|
  {
    if |es| > 0 {
      var o' := o.(saveOk := saveOk);
      assert PayeeFor(i, o') == PayeeFor(i, o);
      assert ProcessEntry(es[0], i, ids, observed, o') == ProcessEntry(es[0], i, ids, observed, o);
      EntriesIgnoreSaveOutcome(es[1..], i + 1, ids, observed, o, saveOk);
    }
  }

  /** Re-running the loop on the mapping it produced, with the same observed
      value, no new accounts and every balance query failing in both runs,
      applies nothing */
  lemma {:induction false} RerunFindsNoDelta(es: seq<Entry>, i: nat, ids1: seq<string>, ids2: seq<string>, observed: int, o1: Outcomes, o2: Outcomes)
    requires forall j: nat :: o1.Balance(j).None? && o2.Balance(j).None?
    requires !RunEntries(es, i, ids1, observed, o1).aborted
    requires forall id :: id in ids2 ==> id in ids1
    ensures RunEntries(RunEntries(es, i, ids1, observed, o1).mapping, i, ids2, observed, o2).applied == 0
    decreases |es|
  {
    if |es| > 0 {
      var r1 := RunEntries(es, i, ids1, observed, o1);
      var rest1 := RunEntries(es[1..], i + 1, ids1, observed, o1);
      RerunFindsNoDelta(es[1..], i + 1, ids1, ids2, observed, o1, o2);
      assert r1.mapping[1..] == rest1.mapping;
      var s2 := ProcessEntry(r1.mapping[0], i, ids2, observed, o2);
      assert !s2.step.Applied? && !s2.step.Aborted?;
    }
  }

  /** `t` ends with the calls `suffix` */
  predicate EndsWith(t: seq<Event>, suffix: seq<Event>) {
    |suffix| <= |t| && t[|t| - |suffix|..] == suffix
  }

  /** `t` ends with the ledger close and closes it nowhere else */
  predicate ClosesOnceAtEnd(t: seq<Event>) {
    |t| >= 1 && t[|t| - 1] == CloseBudget && CloseBudget !in t[..|t| - 1]
  }

  lemma ClosesOnceAtEndPrefixed(a: seq<Event>, t: seq<Event>)
    requires CloseBudget !in a && ClosesOnceAtEnd(t)
    ensures ClosesOnceAtEnd(a + t)
  {
    assert (a + t)[..|a + t| - 1] == a + t[..|t| - 1];
  }

  /** The calls after the entry loop: the atomic save and the post-sync
      unless the loop was aborted, then the close */
  function Epilogue(aborted: bool): seq<Event> {
    if aborted then [CloseBudget] else [SaveMapping, SyncBudget, CloseBudget]
  }

  /** The calls before the entry loop: open, pre-sync, account fetch, and
      the one observation of the pension value */
  const Prologue: seq<Event> := [OpenBudget, SyncBudget, GetAccounts, Observe]

  /** The part of a pass after the observation: the entry loop, then (unless
      the loop was aborted) the atomic save and the post-sync, then the close */
  function Reconcile(mapping: seq<Entry>, ids: seq<string>, current: int, o: Outcomes): (r: SyncResult)
    ensures r.applied == |r.txs|
    ensures r.applied == SuccessfulSubmits(r.trace, o)
    ensures ClosesOnceAtEnd(r.trace)
    ensures Observe !in r.trace
    ensures r.persisted.Some? ==>
              && o.saveOk
              && |r.persisted.value| == |mapping|
              && forall k :: 0 <= k < |mapping| ==>
                   r.persisted.value[k] == mapping[k] || r.persisted.value[k] == mapping[k].(lastBalance := Some(current))
  {
    var p := RunEntries(mapping, 0, ids, current, o);
    var tail := Epilogue(p.aborted);
    LoopCountsSubmits(mapping, 0, ids, current, o);
    LoopCallsStayInRange(mapping, 0, ids, current, o);
    LoopOnlySetsBalances(mapping, 0, ids, current, o);
    NoSubmitsWithoutAddTransactions(tail, o);
    SuccessfulSubmitsAppend(p.trace, tail, o);
    ClosesOnceAtEndPrefixed(p.trace, tail);
    SyncResult(p.applied, p.txs, if !p.aborted && o.saveOk then Some(p.mapping) else None, p.trace + tail)
  }

  /** One reconciliation pass. `load` is the parsed mapping file, or None
      when it is missing or unparsable. */
  function RunSync(load: Option<seq<Entry>>, o: Outcomes): (r: SyncResult)
    ensures r.applied == |r.txs|
    ensures !o.openOk ==> r == SyncResult(0, [], None, [OpenBudget])
    ensures o.openOk ==> ClosesOnceAtEnd(r.trace) && r.trace[0] == OpenBudget
    ensures (o.accounts.None? || o.observed.None?) ==> r.applied == 0 && r.persisted.None?
    ensures r.persisted.Some? ==>
              && o.saveOk
              && |r.persisted.value| == |load.GetOr([])|
              && forall k :: 0 <= k < |load.GetOr([])| ==>
                   || r.persisted.value[k] == load.GetOr([])[k]
                   || r.persisted.value[k] == load.GetOr([])[k].(lastBalance := o.observed)
  {
    if !o.openOk then SyncResult(0, [], None, [OpenBudget])
    else
      if o.accounts.None? then
        SyncResult(0, [], None, [OpenBudget, SyncBudget, GetAccounts, CloseBudget])
      else if o.observed.None? then
        SyncResult(0, [], None, [OpenBudget, SyncBudget, GetAccounts, Observe, CloseBudget])
      else
        var rest := Reconcile(load.GetOr([]), o.accounts.value, o.observed.value, o);
        ClosesOnceAtEndPrefixed(Prologue, rest.trace);
        rest.(trace := Prologue + rest.trace)
  }

  // ---------------------------------------------------------------------
  // Properties of a whole pass

  /** The calls, count, transactions and saved mapping of a pass that gets
      as far as its entry loop, in terms of that loop */
  lemma PassShape(m: seq<Entry>, o: Outcomes)
    requires o.openOk && o.accounts.Some? && o.observed.Some?
    ensures var r := RunSync(Some(m), o);
            var p := RunEntries(m, 0, o.accounts.value, o.observed.value, o);
            && r.trace == Prologue + (p.trace + Epilogue(p.aborted))
            && r.applied == p.applied && r.txs == p.txs
            && r.persisted == (if !p.aborted && o.saveOk then Some(p.mapping) else None)
            && (forall ev :: ev in p.trace ==> ev.PerEntry())
  {
    LoopCallsStayInRange(m, 0, o.accounts.value, o.observed.value, o);
  }

  /** The count a pass returns is the number of submissions that resolved */
  lemma PassCountsSubmits(load: Option<seq<Entry>>, o: Outcomes)
    ensures RunSync(load, o).applied == SuccessfulSubmits(RunSync(load, o).trace, o)
  {
    if !o.openOk {
      NoSubmitsWithoutAddTransactions([OpenBudget], o);
    } else if o.accounts.None? {
      NoSubmitsWithoutAddTransactions([OpenBudget, SyncBudget, GetAccounts, CloseBudget], o);
    } else if o.observed.None? {
      NoSubmitsWithoutAddTransactions([OpenBudget, SyncBudget, GetAccounts, Observe, CloseBudget], o);
    } else {
      var rest := Reconcile(load.GetOr([]), o.accounts.value, o.observed.value, o);
      NoSubmitsWithoutAddTransactions(Prologue, o);
      SuccessfulSubmitsAppend(Prologue, rest.trace, o);
    }
  }

  /** A missing or unparsable mapping file gives a pass over no entries:
      nothing is applied, and an empty mapping is what gets saved */
  lemma MissingMappingAppliesNothing(o: Outcomes)
    ensures var r := RunSync(None, o);
            && r.applied == 0 && r.txs == []
            && (o.openOk && o.accounts.Some? && o.observed.Some? && o.saveOk ==> r.persisted == Some([]))
  {
  }

  /** The pension value is observed exactly once, after the open and the
      account fetch and before any per-entry call */
  lemma ObservedOnceBeforeEntries(load: Option<seq<Entry>>, o: Outcomes)
    requires o.openOk && o.accounts.Some?
    ensures var t := RunSync(load, o).trace;
            && |t| > 4 && t[3] == Observe
            && Observe !in t[..3] && Observe !in t[4..]
            && forall k :: 0 <= k < 3 ==> !t[k].PerEntry()
  {
    if o.observed.Some? {
      var t := RunSync(load, o).trace;
      var rest := Reconcile(load.GetOr([]), o.accounts.value, o.observed.value, o);
      assert t == Prologue + rest.trace;
      assert t[4..] == rest.trace;
    }
  }

  /** An entry whose account the ledger does not list is skipped: no call
      concerns it and it is saved as it was */
  lemma SkippedEntryIsUntouched(m: seq<Entry>, o: Outcomes, k: nat)
    requires k < |m| && o.accounts.Some? && m[k].accountId !in o.accounts.value
    ensures var r := RunSync(Some(m), o);
            && NoCallsFor(r.trace, k)
            && (r.persisted.Some? ==> r.persisted.value[k] == m[k])
  {
    if o.openOk && o.observed.Some? {
      PassShape(m, o);
      var p := RunEntries(m, 0, o.accounts.value, o.observed.value, o);
      PassTraceCalls(p.trace, p.aborted);
      UnlistedEntryIsSkipped(m, 0, o.accounts.value, o.observed.value, o, k);
    }
  }

  /** An entry whose baseline already equals the observed value gets no
      transaction and is saved as it was */
  lemma ZeroDeltaEntryIsUntouched(m: seq<Entry>, o: Outcomes, k: nat)
    requires k < |m| && o.observed.Some? && Baseline(m[k], o.Balance(k)) == o.observed.value
    ensures var r := RunSync(Some(m), o);
            && AddTransactions(k) !in r.trace
            && (r.persisted.Some? ==> r.persisted.value[k] == m[k])
  {
    if o.openOk && o.accounts.Some? {
      PassShape(m, o);
      ZeroDeltaKeepsEntry(m, 0, o.accounts.value, o.observed.value, o, k);
      ZeroDeltaSubmitsNothing(m, 0, o.accounts.value, o.observed.value, o, k);
    }
  }

  /** In a pass that runs to its save, a listed entry whose baseline differs
      from the observed value gets the transaction for its delta, and its
      stored balance becomes the observed value itself */
  lemma ChangedEntryIsApplied(m: seq<Entry>, o: Outcomes, k: nat)
    requires k < |m| && o.accounts.Some? && m[k].accountId in o.accounts.value
    requires o.observed.Some? && Baseline(m[k], o.Balance(k)) != o.observed.value
    requires SaveMapping in RunSync(Some(m), o).trace
    ensures var r := RunSync(Some(m), o);
            && AddTransactions(k) in r.trace
            && (r.persisted.Some? ==> r.persisted.value[k] == m[k].(lastBalance := o.observed))
  {
    PassShape(m, o);
    var p := RunEntries(m, 0, o.accounts.value, o.observed.value, o);
    PassTraceCalls(p.trace, p.aborted);
    assert !p.aborted;
    ChangedIsApplied(m, 0, o.accounts.value, o.observed.value, o, k);
  }

  /** The transaction such an entry gets carries its account, its delta in
      pence and the resolved payee */
  lemma ChangedEntryGetsItsTx(m: seq<Entry>, o: Outcomes, k: nat)
    requires k < |m| && o.accounts.Some? && m[k].accountId in o.accounts.value
    requires o.observed.Some? && Baseline(m[k], o.Balance(k)) != o.observed.value
    requires SaveMapping in RunSync(Some(m), o).trace
    ensures Tx(m[k].accountId, o.observed.value - Baseline(m[k], o.Balance(k)),
               PayeeFor(k, o), PayeeName, false, false) in RunSync(Some(m), o).txs
  {
    ChangedEntryIsOwed(m, 0, o.accounts.value, o.observed.value, o, k);
    PassSubmitsOwedTxs(m, o);
  }

  /** The transactions of a pass are owed ones, in mapping order: all of
      them when the pass gets to its save */
  lemma PassSubmitsOwedTxs(m: seq<Entry>, o: Outcomes)
    requires o.accounts.Some? && o.observed.Some?
    ensures var r := RunSync(Some(m), o);
            var owed := OwedTxs(m, 0, o.accounts.value, o.observed.value, o);
            && r.txs <= owed
            && (SaveMapping in r.trace ==> r.txs == owed)
  {
    if o.openOk {
      PassShape(m, o);
      var p := RunEntries(m, 0, o.accounts.value, o.observed.value, o);
      PassTraceCalls(p.trace, p.aborted);
      LoopSubmitsOwedTxs(m, 0, o.accounts.value, o.observed.value, o);
    }
  }

  /** A failed submission skips the save and the post-sync: the ledger is
      closed straight after it and the count so far is returned */
  lemma FailedSubmitSkipsSave(m: seq<Entry>, o: Outcomes, j: nat)
    requires AddTransactions(j) in RunSync(Some(m), o).trace && !o.SubmitOk(j)
    ensures var r := RunSync(Some(m), o);
            && r.persisted.None?
            && SaveMapping !in r.trace
            && EndsWith(r.trace, [AddTransactions(j), CloseBudget])
  {
    assert o.openOk && o.accounts.Some? && o.observed.Some?;
    var ids, v := o.accounts.value, o.observed.value;
    var r := RunSync(Some(m), o);
    PassShape(m, o);
    var p := RunEntries(m, 0, ids, v, o);
    assert r.trace == Prologue + (p.trace + Epilogue(p.aborted));
    PassTraceCalls(p.trace, p.aborted);
    assert AddTransactions(j) in p.trace;
    FailedSubmitAbortsLoop(m, 0, ids, v, o, j);
    assert p.aborted;
    FailedSubmitIsLastCall(m, 0, ids, v, o, j);
    assert r.trace == Prologue + (p.trace + Epilogue(true));
  }

  /** Which calls of a pass come from its loop: every per-entry call, and
      no save, which happens exactly when the loop was not aborted */
  lemma PassTraceCalls(loop: seq<Event>, aborted: bool)
    requires forall ev :: ev in loop ==> ev.PerEntry()
    ensures SaveMapping in Prologue + (loop + Epilogue(aborted)) <==> !aborted
    ensures forall ev: Event :: ev.PerEntry() ==> (ev in Prologue + (loop + Epilogue(aborted)) <==> ev in loop)
    ensures aborted && |loop| >= 1 ==>
              EndsWith(Prologue + (loop + Epilogue(aborted)), [loop[|loop| - 1], CloseBudget])
  {
    var t := Prologue + (loop + Epilogue(aborted));
    if aborted && |loop| >= 1 {
      assert t[|t| - 2..] == [loop[|loop| - 1], CloseBudget];
    }
  }

  /** Whether the mapping file is written does not change the count, the
      transactions or the calls made */
  lemma SaveOutcomeKeepsCount(load: Option<seq<Entry>>, o: Outcomes)
    ensures var failed := RunSync(load, o.(saveOk := false));
            var saved := RunSync(load, o.(saveOk := true));
            failed.applied == saved.applied && failed.txs == saved.txs && failed.trace == saved.trace
  {
    if o.openOk && o.accounts.Some? && o.observed.Some? {
      EntriesIgnoreSaveOutcome(load.GetOr([]), 0, o.accounts.value, o.observed.value, o, false);
      EntriesIgnoreSaveOutcome(load.GetOr([]), 0, o.accounts.value, o.observed.value, o, true);
    }
  }

  /** A second pass over the saved mapping, with the same observed value, no
      newly listed accounts and every balance query failing in both passes,
      applies nothing */
  lemma SecondPassAppliesNothing(m: seq<Entry>, o1: Outcomes, o2: Outcomes)
    requires forall j: nat :: o1.Balance(j).None? && o2.Balance(j).None?
    requires RunSync(Some(m), o1).persisted.Some?
    requires o2.observed == o1.observed
    requires o2.accounts.Some? ==> forall id :: id in o2.accounts.value ==> id in o1.accounts.GetOr([])
    ensures RunSync(RunSync(Some(m), o1).persisted, o2).applied == 0
  {
    var r1 := RunSync(Some(m), o1);
    var ids1, c := o1.accounts.value, o1.observed.value;
    if o2.openOk && o2.accounts.Some? {
      RerunFindsNoDelta(m, 0, ids1, o2.accounts.value, c, o1, o2);
    }
  }

  /** The fallback makes a second pass non-idempotent when the first pass
      matched on the ledger balance: that entry's stored balance stays stale,
      and a failing query in the second pass falls back to it */
  lemma StaleFallbackCanReapply()
    ensures var m := [Entry("A", Some(0))];
            var o1 := Outcomes(true, Some(["A"]), Some(500), [Some(500)], [Some([])], [None], [true], true);
            var o2 := o1.(balances := []);
            && RunSync(Some(m), o1).applied == 0
            && RunSync(RunSync(Some(m), o1).persisted, o2).applied == 1
  {
  }
}

=== FILE: web_ui.dfy ===
/** Two decisions of the web front end: whether a request carries the
    session cookie, and how the data endpoint recovers a ledger that is not
    open. The HTTP framework around them is not modelled. */
module WebUi {
  import opened Wrappers
  import Sync

  const DefaultCookieName: string := "actual-auth"

  /** The ledger's error message when no budget file is open */
  const NoBudgetOpenMessage: string := "No budget file is open"

  // JavaScript's String.prototype.trim

  /** White space and line terminators as String.prototype.trim removes them */
  predicate IsJsWhitespace(c: char) {
    c == '\t' || c == '\n' || c == '\U{000B}' || c == '\U{000C}' || c == '\r' || c == ' '
    || c == '\U{00A0}' || c == '\U{1680}' || ('\U{2000}' <= c <= '\U{200A}')
    || c == '\U{2028}' || c == '\U{2029}' || c == '\U{202F}' || c == '\U{205F}'
    || c == '\U{3000}' || c == '\U{FEFF}'
  }

  /** s without its leading white space */
  function TrimStart(s: string): (t: string)
    ensures |t| <= |s|
  {
    if s != [] && IsJsWhitespace(s[0]) then TrimStart(s[1..]) else s
  }

  /** TrimStart keeps a suffix, and that suffix starts with a visible character */
  lemma {:induction false} TrimStartIsSuffix(s: string)
    ensures TrimStart(s) == s[|s| - |TrimStart(s)|..]
    ensures TrimStart(s) != [] ==> !IsJsWhitespace(TrimStart(s)[0])
  {
    if s != [] && IsJsWhitespace(s[0]) {
      TrimStartIsSuffix(s[1..]);
      assert s[1..][|s| - 1 - |TrimStart(s)|..] == s[|s| - |TrimStart(s)|..];
    }
  }

  /** Only white space is removed at the front */
  lemma {:induction false} TrimStartDropsWhitespace(s: string)
    ensures forall k :: 0 <= k < |s| - |TrimStart(s)| ==> IsJsWhitespace(s[k])
  {
    if s != [] && IsJsWhitespace(s[0]) {
      TrimStartDropsWhitespace(s[1..]);
      forall k | 1 <= k < |s| - |TrimStart(s)| ensures IsJsWhitespace(s[k]) {
        assert s[k] == s[1..][k - 1];
      }
    }
  }

  /** s without its trailing white space */
  function TrimEnd(s: string): (t: string)
    ensures |t| <= |s|
  {
    if s != [] && IsJsWhitespace(s[|s| - 1]) then TrimEnd(s[..|s| - 1]) else s
  }

  /** TrimEnd keeps a prefix, and that prefix ends with a visible character */
  lemma {:induction false} TrimEndIsPrefix(s: string)
    ensures TrimEnd(s) == s[..|TrimEnd(s)|]
    ensures TrimEnd(s) != [] ==> !IsJsWhitespace(TrimEnd(s)[|TrimEnd(s)| - 1])
  {
    if s != [] && IsJsWhitespace(s[|s| - 1]) {
      TrimEndIsPrefix(s[..|s| - 1]);
      assert s[..|s| - 1][..|TrimEnd(s)|] == s[..|TrimEnd(s)|];
    }
  }

  /** Only white space is removed at the back */
  lemma {:induction false} TrimEndDropsWhitespace(s: string)
    ensures forall k :: |TrimEnd(s)| <= k < |s| ==> IsJsWhitespace(s[k])
  {
    if s != [] && IsJsWhitespace(s[|s| - 1]) {
      TrimEndDropsWhitespace(s[..|s| - 1]);
      forall k | |TrimEnd(s)| <= k < |s| - 1 ensures IsJsWhitespace(s[k]) {
        assert s[k] == s[..|s| - 1][k];
      }
    }
  }

  /** A text trims to nothing exactly when it is all white space */
  lemma TrimsToNothing(s: string)
    ensures TrimEnd(TrimStart(s)) == [] <==> forall k :: 0 <= k < |s| ==> IsJsWhitespace(s[k])
  {
    var u := TrimStart(s);
    TrimStartIsSuffix(s);
    TrimStartDropsWhitespace(s);
    TrimEndIsPrefix(u);
    TrimEndDropsWhitespace(u);
  }

  /** s without white space at either end: a non-empty result starts and
      ends with visible characters, and the result is empty exactly when s
      is all white space */
  function Trim(s: string): (t: string)
    ensures |t| <= |s|
    ensures t != [] ==> !IsJsWhitespace(t[0]) && !IsJsWhitespace(t[|t| - 1])
    ensures t == [] <==> forall k :: 0 <= k < |s| ==> IsJsWhitespace(s[k])
  {
    TrimStartIsSuffix(s);
    TrimEndIsPrefix(TrimStart(s));
    TrimsToNothing(s);
    TrimEnd(TrimStart(s))
  }

  /** A text with visible characters at both ends is its own trim */
  lemma TrimOfVisible(s: string)
    requires s != [] ==> !IsJsWhitespace(s[0]) && !IsJsWhitespace(s[|s| - 1])
    ensures Trim(s) == s
  {
    if s != [] {
      TrimStartAt(s, 0);
      assert s[0..] == s;
    }
  }

  /** Trimming twice is trimming once */
  lemma TrimIdempotent(s: string)
    ensures Trim(Trim(s)) == Trim(s)
  {
    TrimOfVisible(Trim(s));
  }

  predicate StartsWith(s: string, prefix: string) {
    |prefix| <= |s| && s[..|prefix|] == prefix
  }

  // String.prototype.split(";") and its inverse

  /** The first ';' at or after p, or the end of s */
  function SegmentEnd(s: string, p: nat): (e: nat)
    requires p <= |s|
    ensures p <= e <= |s| && (e < |s| ==> s[e] == ';')
    decreases |s| - p
  {
    if p == |s| || s[p] == ';' then p else SegmentEnd(s, p + 1)
  }

  lemma {:induction false} NoSeparatorBeforeSegmentEnd(s: string, p: nat)
    requires p <= |s|
    ensures forall k :: p <= k < SegmentEnd(s, p) ==> s[k] != ';'
    decreases |s| - p
  {
    if p < |s| && s[p] != ';' {
      NoSeparatorBeforeSegmentEnd(s, p + 1);
    }
  }

  /** The ';'-separated pieces of s from position p on */
  function SplitFrom(s: string, p: nat): (parts: seq<string>)
    requires p <= |s|
    ensures |parts| > 0
    decreases |s| - p
  {
    var e := SegmentEnd(s, p);
    if e == |s| then [s[p..]] else [s[p..e]] + SplitFrom(s, e + 1)
  }

  /** The pieces of s between its ';' separators: they join back to s, and
      none of them holds a separator */
  function Split(s: string): (parts: seq<string>)
    ensures |parts| > 0
    ensures Join(parts) == s
    ensures forall i :: 0 <= i < |parts| ==> ';' !in parts[i]
  {
    SplitFromJoins(s, 0);
    SplitFromHasNoSeparators(s, 0);
    SplitFrom(s, 0)
  }

  function Join(parts: seq<string>): string
    requires |parts| > 0
  {
    if |parts| == 1 then parts[0] else parts[0] + ";" + Join(parts[1..])
  }

  /** The first piece runs up to the first ';' */
  lemma SplitFromHead(s: string, p: nat, e: nat)
    requires p <= |s| && e == SegmentEnd(s, p)
    ensures SplitFrom(s, p)[0] == s[p..e]
  {
  }

  /** Past a ';', the pieces are the first segment followed by the pieces after it */
  lemma SplitFromStep(s: string, p: nat, e: nat)
    requires p <= |s| && e == SegmentEnd(s, p) && e < |s|
    ensures SplitFrom(s, p) == [s[p..e]] + SplitFrom(s, e + 1)
  {
  }

  /** Without a further ';', the rest of the text is one piece */
  lemma SplitFromLast(s: string, p: nat)
    requires p <= |s| && SegmentEnd(s, p) == |s|
    ensures SplitFrom(s, p) == [s[p..]]
    ensures Join(SplitFrom(s, p)) == s[p..]
  {
    assert s[p..SegmentEnd(s, p)] == s[p..];
  }

  /** The pieces after the first are the pieces after the first ';' */
  lemma SplitFromTail(s: string, p: nat, e: nat, i: nat)
    requires p <= |s| && e == SegmentEnd(s, p) && 0 < i < |SplitFrom(s, p)|
    ensures e < |s| && i - 1 < |SplitFrom(s, e + 1)|
    ensures SplitFrom(s, p)[i] == SplitFrom(s, e + 1)[i - 1]
  {
    if e == |s| {
      SplitFromLast(s, p);
    } else {
      SplitFromStep(s, p, e);
    }
  }

  /** And the other way: piece j after the first ';' is piece j + 1 from p */
  lemma SplitFromShift(s: string, p: nat, e: nat, j: nat)
    requires p <= |s| && e == SegmentEnd(s, p) && e < |s| && j < |SplitFrom(s, e + 1)|
    ensures j + 1 < |SplitFrom(s, p)| && SplitFrom(s, p)[j + 1] == SplitFrom(s, e + 1)[j]
  {
    SplitFromStep(s, p, e);
  }

  /** Joining the pieces back gives the text */
  lemma {:induction false} SplitFromJoins(s: string, p: nat)
    requires p <= |s|
    ensures Join(SplitFrom(s, p)) == s[p..]
    decreases |s| - p
  {
    var e := SegmentEnd(s, p);
    if e < |s| {
      SplitFromJoins(s, e + 1);
      JoinPastSeparator(s, p, e);
    } else {
      SplitFromLast(s, p);
    }
  }

  /** The inductive step: the pieces after the first ';' join to the rest */
  lemma JoinPastSeparator(s: string, p: nat, e: nat)
    requires p <= e < |s| && e == SegmentEnd(s, p)
    requires Join(SplitFrom(s, e + 1)) == s[e + 1..]
    ensures Join(SplitFrom(s, p)) == s[p..]
  {
    SplitFromStep(s, p, e);
    SplitAtSeparator(s, p, e);
    JoinCons(SplitFrom(s, p), s[p..e], SplitFrom(s, e + 1), s[e + 1..], s[p..]);
  }

  /** Joining a piece in front of pieces that join to `tail` */
  lemma JoinCons(parts: seq<string>, x: string, rest: seq<string>, tail: string, whole: string)
    requires |rest| > 0 && parts == [x] + rest
    requires Join(rest) == tail && whole == x + ";" + tail
    ensures Join(parts) == whole
  {
    assert parts[1..] == rest;
  }

  lemma SplitAtSeparator(s: string, p: nat, e: nat)
    requires p <= e < |s| && s[e] == ';'
    ensures s[p..] == s[p..e] + ";" + s[e + 1..]
  {
  }

  /** The first piece holds no separator */
  lemma FirstPieceHasNoSeparator(s: string, p: nat)
    requires p <= |s|
    ensures ';' !in s[p..SegmentEnd(s, p)]
  {
    var e := SegmentEnd(s, p);
    NoSeparatorBeforeSegmentEnd(s, p);
    forall k | 0 <= k < e - p ensures s[p..e][k] != ';' {
      assert s[p..e][k] == s[p + k];
    }
  }

  /** No piece holds the separator */
  lemma {:induction false} SplitFromHasNoSeparator(s: string, p: nat, i: nat)
    requires p <= |s| && i < |SplitFrom(s, p)|
    ensures ';' !in SplitFrom(s, p)[i]
    decreases |s| - p
  {
    if i == 0 {
      SplitFromHead(s, p, SegmentEnd(s, p));
      FirstPieceHasNoSeparator(s, p);
    } else {
      var e := SegmentEnd(s, p);
      SplitFromTail(s, p, e, i);
      SplitFromHasNoSeparator(s, e + 1, i - 1);
    }
  }

  lemma SplitFromHasNoSeparators(s: string, p: nat)
    requires p <= |s|
    ensures forall i :: 0 <= i < |SplitFrom(s, p)| ==> ';' !in SplitFrom(s, p)[i]
  {
    forall i | 0 <= i < |SplitFrom(s, p)| ensures ';' !in SplitFrom(s, p)[i] {
      SplitFromHasNoSeparator(s, p, i);
    }
  }

  /** A piece starts at the beginning of the text or right after a ';' */
  predicate SegmentStart(s: string, p: nat) {
    p <= |s| && (p == 0 || s[p - 1] == ';')
  }

  /** Every piece from p on is the segment at some start r >= p */
  lemma {:induction false} PieceIsSegment(s: string, p: nat, i: nat) returns (r: nat)
    requires SegmentStart(s, p) && i < |SplitFrom(s, p)|
    ensures p <= r <= |s| && SegmentStart(s, r) && SplitFrom(s, p)[i] == s[r..SegmentEnd(s, r)]
    decreases |s| - p, 1
  {
    if i == 0 {
      SplitFromHead(s, p, SegmentEnd(s, p));
      r := p;
    } else {
      r := LaterPieceIsSegment(s, p, SegmentEnd(s, p), i);
    }
  }

  /** The pieces after the first are found past the first ';' */
  lemma {:induction false} LaterPieceIsSegment(s: string, p: nat, e: nat, i: nat) returns (r: nat)
    requires SegmentStart(s, p) && e == SegmentEnd(s, p) && 0 < i < |SplitFrom(s, p)|
    ensures p < r <= |s| && SegmentStart(s, r) && SplitFrom(s, p)[i] == s[r..SegmentEnd(s, r)]
    decreases |s| - p, 0
  {
    SplitFromTail(s, p, e, i);
    r := PieceIsSegment(s, e + 1, i - 1);
  }

  /** The next segment start after p lies past p's first ';' */
  lemma NextStartPastSeparator(s: string, p: nat, e: nat, r: nat)
    requires SegmentStart(s, p) && SegmentStart(s, r) && p < r && e == SegmentEnd(s, p)
    ensures e < |s| && e + 1 <= r
  {
    NoSeparatorBeforeSegmentEnd(s, p);
    assert s[r - 1] == ';';
  }

  /** Every segment that starts at r >= p is one of the pieces from p on */
  lemma {:induction false} SegmentIsPiece(s: string, p: nat, r: nat) returns (i: nat)
    requires SegmentStart(s, p) && SegmentStart(s, r) && p <= r
    ensures i < |SplitFrom(s, p)| && SplitFrom(s, p)[i] == s[r..SegmentEnd(s, r)]
    decreases r - p
  {
    var e := SegmentEnd(s, p);
    if r == p {
      SplitFromHead(s, p, e);
      i := 0;
    } else {
      NextStartPastSeparator(s, p, e, r);
      var j := SegmentIsPiece(s, e + 1, r);
      SplitFromShift(s, p, e, j);
      i := j + 1;
    }
  }

  // The session cookie check

  /** The cookie's name: the configured one, trimmed, unless that is unset or blank */
  function CookieName(configured: Option<string>): (name: string)
    ensures name != [] && !IsJsWhitespace(name[0]) && !IsJsWhitespace(name[|name| - 1])
    ensures configured.Some? && Trim(configured.value) != [] ==> name == Trim(configured.value)
    ensures configured.None? || Trim(configured.value) == [] ==> name == DefaultCookieName
  {
    match configured
    case Some(n) =>
      if Trim(n) != [] then Trim(n) else DefaultCookieName
    case None => DefaultCookieName
  }

  /** A chosen cookie name configured again gives the same name */
  lemma CookieNameIsStable(configured: Option<string>)
    ensures CookieName(Some(CookieName(configured))) == CookieName(configured)
  {
    TrimOfVisible(CookieName(configured));
  }

  /** A piece of the header, trimmed, starts with `name=` */
  predicate HoldsCookie(piece: string, name: string) {
    StartsWith(Trim(piece), name + "=")
  }

  /** Whether the request's Cookie header holds the session cookie: some
      segment of the header has `name=` right after its leading white space */
  function HasAuthCookie(configured: Option<string>, header: Option<string>): (r: bool)
    ensures r <==> exists p, q :: CookieAt(header.GetOr(""), CookieName(configured), p, q)
  {
    var parts := Split(header.GetOr(""));
    PiecesHoldCookieIffCookieAt(header.GetOr(""), CookieName(configured));
    exists i :: 0 <= i < |parts| && HoldsCookie(parts[i], CookieName(configured))
  }

  /** `pre` sits at j in the piece, with only white space before it */
  predicate PrefixAfterSpace(piece: string, pre: string, j: nat) {
    j + |pre| <= |piece|
    && (forall k :: 0 <= k < j ==> IsJsWhitespace(piece[k]))
    && piece[j..j + |pre|] == pre
  }

  /** The cookie `name=…` sits at q in the header, inside the segment that
      starts at p, with only white space between p and q */
  predicate CookieAt(h: string, name: string, p: nat, q: nat) {
    SegmentStart(h, p) && p <= q && PrefixAfterSpace(h[p..SegmentEnd(h, p)], name + "=", q - p)
  }

  /** Trailing white space never cuts into a prefix that ends in a visible character */
  lemma TrimEndKeepsPrefix(s: string, pre: string)
    requires pre != [] && !IsJsWhitespace(pre[|pre| - 1])
    ensures StartsWith(TrimEnd(s), pre) <==> StartsWith(s, pre)
  {
    var t := TrimEnd(s);
    TrimEndIsPrefix(s);
    TrimEndDropsWhitespace(s);
    if StartsWith(s, pre) {
      assert s[|pre| - 1] == pre[|pre| - 1];
      assert t[..|pre|] == s[..|pre|];
    }
    if StartsWith(t, pre) {
      assert s[..|pre|] == t[..|pre|];
    }
  }

  /** Leading white space ending at j is exactly what TrimStart removes */
  lemma {:induction false} TrimStartAt(s: string, j: nat)
    requires j < |s| && !IsJsWhitespace(s[j])
    requires forall k :: 0 <= k < j ==> IsJsWhitespace(s[k])
    ensures TrimStart(s) == s[j..]
  {
    if j > 0 {
      assert IsJsWhitespace(s[0]);
      TrimStartAt(s[1..], j - 1);
      assert s[1..][j - 1..] == s[j..];
    }
  }

  /** A piece that holds the cookie has `name=` right after its leading white space */
  lemma HeldCookieIsAfterSpace(piece: string, name: string) returns (j: nat)
    requires name != [] && HoldsCookie(piece, name)
    ensures PrefixAfterSpace(piece, name + "=", j)
  {
    var t := TrimStart(piece);
    j := |piece| - |t|;
    TrimStartIsSuffix(piece);
    TrimStartDropsWhitespace(piece);
    EndsVisibly(name);
    TrimEndKeepsPrefix(t, name + "=");
    PrefixOfSuffix(piece, t, j, name + "=");
  }

  /** `name=` ends in a visible character */
  lemma EndsVisibly(name: string)
    ensures name + "=" != [] && !IsJsWhitespace((name + "=")[|name + "="| - 1])
  {
    assert (name + "=")[|name|] == '=';
  }

  /** A prefix of the suffix from j sits at j */
  lemma PrefixOfSuffix(s: string, t: string, j: nat, pre: string)
    requires j <= |s| && t == s[j..] && StartsWith(t, pre)
    ensures j + |pre| <= |s| && s[j..j + |pre|] == pre
  {
    assert s[j..j + |pre|] == t[..|pre|];
  }

  /** `name=` right after a piece's leading white space makes it hold the cookie */
  lemma CookieAfterSpaceIsHeld(piece: string, name: string, j: nat)
    requires name != [] && !IsJsWhitespace(name[0]) && PrefixAfterSpace(piece, name + "=", j)
    ensures HoldsCookie(piece, name)
  {
    var pre := name + "=";
    assert piece[j] == piece[j..j + |pre|][0] == name[0];
    TrimStartAt(piece, j);
    assert TrimStart(piece)[..|pre|] == pre;
    TrimEndKeepsPrefix(TrimStart(piece), pre);
  }

  /** A segment holding the cookie has it right after its leading white space */
  lemma CookieOfSegment(h: string, name: string, p: nat) returns (q: nat)
    requires SegmentStart(h, p) && name != []
    requires HoldsCookie(h[p..SegmentEnd(h, p)], name)
    ensures CookieAt(h, name, p, q)
  {
    var j := HeldCookieIsAfterSpace(h[p..SegmentEnd(h, p)], name);
    q := p + j;
  }

  /** A cookie sitting after a segment's leading white space makes the
      segment hold it */
  lemma SegmentOfCookie(h: string, name: string, p: nat, q: nat)
    requires CookieAt(h, name, p, q) && name != [] && !IsJsWhitespace(name[0])
    ensures HoldsCookie(h[p..SegmentEnd(h, p)], name)
  {
    CookieAfterSpaceIsHeld(h[p..SegmentEnd(h, p)], name, q - p);
  }

  /** Some piece of the header holds the cookie exactly when some segment
      holds `name=` after its leading white space */
  lemma PiecesHoldCookieIffCookieAt(header: string, name: string)
    requires name != [] && !IsJsWhitespace(name[0])
    ensures (exists i :: 0 <= i < |SplitFrom(header, 0)| && HoldsCookie(SplitFrom(header, 0)[i], name)) <==>
            exists p, q :: CookieAt(header, name, p, q)
  {
    var parts := SplitFrom(header, 0);
    if exists i :: 0 <= i < |parts| && HoldsCookie(parts[i], name) {
      var i :| 0 <= i < |parts| && HoldsCookie(parts[i], name);
      var r := PieceIsSegment(header, 0, i);
      var q := CookieOfSegment(header, name, r);
    }
    if exists p, q :: CookieAt(header, name, p, q) {
      var p, q :| CookieAt(header, name, p, q);
      SegmentOfCookie(header, name, p, q);
      var i := SegmentIsPiece(header, 0, p);
    }
  }

  /** A request without a Cookie header is not signed in */
  lemma MissingHeaderHasNoCookie(configured: Option<string>)
    ensures !HasAuthCookie(configured, None)
  {
    assert Split("") == [""];
  }

  // The data endpoint

  datatype Account = Account(id: string, name: string)

  /** A ledger call made while answering */
  datatype Call = Open | Fetch

  /** What the ledger and the file system answer, in the order they are asked */
  datatype DataOutcomes = DataOutcomes(
    retry: Outcome<string>,                          // opening the ledger when it is not ready
    mappingFile: Option<seq<Sync.Entry>>,            // None when missing or not valid JSON
    first: Result<seq<Account>, Option<string>>,     // the account list, or the thrown error's message
    reopen: Outcome<string>,                         // reopening after "no budget file is open"
    refetch: Result<seq<Account>, Option<string>>)   // the account list after reopening

  datatype DataResponse = DataResponse(mapping: seq<Sync.Entry>, accounts: seq<Account>)

  datatype DataResult = DataResult(ready: bool, response: DataResponse, calls: seq<Call>)

  /** One request to the data endpoint, from the ledger's readiness flag */
  function ApiData(ready: bool, o: DataOutcomes): (r: DataResult)
    ensures r.response.mapping == o.mappingFile.GetOr([])
    ensures !r.ready ==> r.response.accounts == []
    ensures Fetch in r.calls <==> ready || o.retry.Pass?
    ensures (Open in r.calls) ==> !ready || o.first == Err(Some(NoBudgetOpenMessage))
    ensures ready && o.first.Ok? ==> r == DataResult(true, DataResponse(r.response.mapping, o.first.value), [Fetch])
    ensures (ready || o.retry.Pass?) && o.first.Ok? ==> r.ready && r.response.accounts == o.first.value
  {
    var mapping := o.mappingFile.GetOr([]);
    var isOpen := ready || o.retry.Pass?;
    var before := if ready then [] else [Open];
    if !isOpen then DataResult(false, DataResponse(mapping, []), before)
    else
      match o.first
      case Ok(xs) => DataResult(true, DataResponse(mapping, xs), before + [Fetch])
      case Err(e) =>
        if e == Some(NoBudgetOpenMessage) then
          if o.reopen.Fail? then DataResult(false, DataResponse(mapping, []), before + [Fetch, Open])
          else
            match o.refetch
            case Ok(xs) => DataResult(true, DataResponse(mapping, xs), before + [Fetch, Open, Fetch])
            case Err(_) => DataResult(false, DataResponse(mapping, []), before + [Fetch, Open, Fetch])
        else DataResult(true, DataResponse(mapping, []), before + [Fetch])
  }

  /** A ledger that is not ready is opened once before anything else, and a
      failed open leaves it not ready with no accounts */
  lemma NotReadyRetriesFirst(o: DataOutcomes)
    ensures ApiData(false, o).calls[0] == Open
    ensures o.retry.Fail? ==> ApiData(false, o) == DataResult(false, DataResponse(o.mappingFile.GetOr([]), []), [Open])
  {
  }

  /** Any other account error, once the ledger is ready or the retry opened
      it, keeps it ready and shows no accounts */
  lemma OtherErrorKeepsReady(ready: bool, o: DataOutcomes)
    requires ready || o.retry.Pass?
    requires o.first.Err? && o.first.error != Some(NoBudgetOpenMessage)
    ensures ApiData(ready, o).ready
    ensures ApiData(ready, o).response.accounts == []
    ensures ApiData(ready, o).calls == (if ready then [] else [Open]) + [Fetch]
  {
  }

  /** "No budget file is open" triggers exactly one reopen, whatever the
      flag was before; the ledger ends ready exactly when both the reopen
      and the second fetch succeed */
  lemma ClosedBudgetReopensOnce(ready: bool, o: DataOutcomes)
    requires ready || o.retry.Pass?
    requires o.first == Err(Some(NoBudgetOpenMessage))
    ensures ApiData(ready, o).calls == (if ready then [] else [Open]) + [Fetch, Open] + (if o.reopen.Pass? then [Fetch] else [])
    ensures ApiData(ready, o).ready <==> o.reopen.Pass? && o.refetch.Ok?
    ensures ApiData(ready, o).ready ==> ApiData(ready, o).response.accounts == o.refetch.value
  {
  }

  /** A ledger that keeps answering "no budget file is open" yields no
      accounts and is marked not ready */
  lemma ClosedBudgetYieldsNoAccounts(ready: bool, o: DataOutcomes)
    requires o.first == Err(Some(NoBudgetOpenMessage)) && o.refetch == Err(Some(NoBudgetOpenMessage))
    ensures ApiData(ready, o).response.accounts == []
    ensures !ApiData(ready, o).ready
  {
  }

  /** After a failed reopen, the next request starts by opening the ledger again */
  lemma FailedReopenRetriesNextRequest(ready: bool, o1: DataOutcomes, o2: DataOutcomes)
    requires ready || o1.retry.Pass?
    requires o1.first == Err(Some(NoBudgetOpenMessage)) && o1.reopen.Fail?
    ensures ApiData(ApiData(ready, o1).ready, o2).calls[0] == Open
  {
  }

  /** The handler's rules for any starting flag: the ledger is usable when it
      was ready or the retry opened it; it ends ready unless "no budget file
      is open" is not cured by a reopen and a second listing; the accounts
      shown are the first listing's, or the second's after a cure, and none
      otherwise; the ledger is listed once when usable, and reopened and
      listed again only on "no budget file is open" */
  lemma ApiDataFollowsReadinessRules(ready: bool, o: DataOutcomes)
    ensures var usable := ready || o.retry.Pass?;
            var closed := o.first == Err(Some(NoBudgetOpenMessage));
            var cured := closed && o.reopen.Pass? && o.refetch.Ok?;
            var r := ApiData(ready, o);
            && (r.ready <==> usable && (!closed || cured))
            && r.response.accounts ==
                 (if !usable then [] else if o.first.Ok? then o.first.value else if cured then o.refetch.value else [])
            && r.calls ==
                 (if ready then [] else [Open])
                 + (if !usable then [] else if !closed then [Fetch] else [Fetch, Open] + (if o.reopen.Pass? then [Fetch] else []))
  {
  }
}

=== FILE: wrappers.dfy ===
/** Plain wrapper types used across the model: an optional value, a
    value-or-error result, and the pass-or-fail outcome of a step that
    returns nothing. */
module Wrappers {

  datatype Option<+T> = None | Some(value: T) {

    /** The wrapped value, or `default` when there is none */
    function GetOr(default: T): T {
      match this
      case Some(v) => v
      case None => default
    }
  }

  datatype Result<+T, +E> = Ok(value: T) | Err(error: E)

  /** The outcome of an external step that either completes or throws `error` */
  datatype Outcome<+E> = Pass | Fail(error: E)
}
